=== FILE: README.md ===
# cutout shapes and transforms, modelled in Dafny

`cutout` is a small 2D vector-shape helper that draws on a cairo context. This project models its core:

- the affine transforms of `cutout/transformations.py`: rotation, translation and scale matrices, their repacking into cairo's six coefficients, and rotation about a pivot;
- the paint routine `paint_paths` of `cutout/shapes.py`, with its three option tables;
- the geometry and `draw` method of every shape in `cutout/shapes.py`: `Circle`, `Rectangle`, `Lines`, `Polygon`, `RegularPolygon`, `Star`, `Arrow` and `RoundedRectangle`.

The cairo context is modelled as the sequence of calls made on it (`Surface.Cmd`). A draw is a `Shapes.Trace`: the calls made, in order, plus the style error that stopped the draw, if any. Cosine, sine, square root and pi are not computed. They come in as a `RealMath.Funcs` value. Every property that depends on facts about them names those facts as a precondition:

- `ZeroAngle`: cos 0 = 1 and sin 0 = 0;
- `QuarterTurns`: the values at pi/2, pi, 3pi/2 and 2pi;
- `Pythagorean`: cos² + sin² = 1;
- `SquareRoot`: sqrt gives the non-negative root.

Modules:

- `Geometry`: points and vector arithmetic.
- `RealMath`: the `Funcs` value and `math.radians`.
- `Transformations`: the 3x3 matrices and cairo's matrix form.
- `Surface`: the calls on the cairo context.
- `Paint`: the option tables and `paint_paths`.
- `Outlines`: the outline each shape computes (polyline paths and pivots, circle vertices, arrow heads, rounded-rectangle paths).
- `Shapes`: the shapes and their `draw` methods.
- `Wrappers`: `Option` and `Result`.

Three behaviours of the code that the model keeps as written:

- Every framed `draw` calls `surface.save()`, the transform and the path calls before `paint_paths` checks its options, and it has no `try`/`finally`. A style error therefore leaves those calls made and the saved state on cairo's stack, with no `restore` (`Shapes.RestoreOnSuccessOnly`, `Shapes.FramedFailure`).
- `Lines` and `Polygon` rotate about half the span of their bounding box, not about its centre (`Outlines.SpanPivotIsHalfSpan`, `Outlines.SpanPivotIgnoresPlacement`).
- `paint_paths` raises `ValueError`, checking one option at a time in the order style, cap, join (`Paint.PaintPaths`).

## Model

| member | source | states |
|---|---|---|
| Transformations.RotationMatrix | cutout/transformations.py:5-13 | the matrix is affine and maps every point to its counter-clockwise rotation about the origin by cos/sin of the angle |
| Transformations.RotationKeepsNorm | cutout/transformations.py:5-13 | when c² + s² = 1, the rotation keeps squared lengths |
| Transformations.TranslationMatrix | cutout/transformations.py:16-24 | the matrix is affine and moves every point by (tx, ty) |
| Transformations.TranslationInverse | cutout/transformations.py:54-56 | the translations by +pivot and -pivot undo each other, in both orders |
| Transformations.ScaleMatrix | cutout/transformations.py:27-35 | the matrix is affine and scales x by sx and y by sy |
| Transformations.CairoAgreesWithMatrix | cutout/transformations.py:38-47 | cairo applying the six repacked coefficients gives the same point as the 3x3 matrix acting on (x, y, 1), so the column-by-column order is not transposed |
| Transformations.CairoRoundTrip | cutout/transformations.py:38-47 | repacking loses nothing on affine matrices: it is undone by the inverse repacking, in both directions |
| Transformations.MulApply | cutout/transformations.py:58 | the `@` product composes actions: (a @ b) v = a (b v) |
| Transformations.Product | cutout/transformations.py:58 | any product of affine matrices, such as translations, rotations and scales, is affine |
| Transformations.PivotRotation | cutout/transformations.py:50-58 | rotate_around_point moves every point q to pivot + R(angle)(q - pivot) |
| Transformations.PivotIsFixed | cutout/transformations.py:50-58 | the pivot is a fixed point of the rotation about it, for every angle |
| Transformations.ZeroRotationIsIdentity | cutout/transformations.py:50-58 | with cos 0 = 1 and sin 0 = 0, rotating by zero about any pivot gives cairo's identity |
| Transformations.RotationKeepsDistance | cutout/transformations.py:50-58 | with cos² + sin² = 1, every point keeps its distance to the pivot |
| RealMath.RadiansAdditive | cutout/shapes.py:103-105 | math.radians is additive on every pair of angles, so a further 360 degrees of orientation is a further 2π of rotation |
| Paint.TableKeys | cutout/shapes.py:12-24 | the accepted line styles, caps and joins are exactly the tables' keys, with the miter join spelled "mitter" |
| Paint.PaintPaths | cutout/shapes.py:30-72 | fails exactly when some option is outside its table. The error names the first bad option in the order style, cap, join. On success no path is built and nothing is saved or restored |
| Paint.FillAndStrokeCounts | cutout/shapes.py:54-72 | fill_preserve happens once exactly when a fill colour is given, and stroke once exactly when a line colour is given. The fill takes two calls and the stroke six, so nothing else is issued. With neither colour, no call is made |
| Paint.SingleColour | cutout/shapes.py:54-72 | with only a fill colour, the calls are exactly set_source_rgba(fill colour, opacity) then fill_preserve. With only a line colour there are six calls: the line colour first, stroke last, and only width, dash, cap and join settings in between |
| Paint.FillBeforeStroke | cutout/shapes.py:54-72 | every fill_preserve comes before every stroke |
| Paint.FillSource | cutout/shapes.py:54-56 | the call just before each fill_preserve sets the source to the fill colour and the opacity, so the fill is made in the fill colour |
| Paint.StrokeSource | cutout/shapes.py:58-72 | five calls before each stroke, the source is set to the line colour and the opacity. Only width, dash, cap and join settings come in between, so the stroke is made in the line colour |
| Paint.SettingsBetween | cutout/shapes.py:54-72 | every width, dash, cap and join setting comes after the fill_preserve and before the stroke |
| Paint.DashPresence | cutout/shapes.py:58-63 | a dash pattern is set exactly when a line colour is given |
| Paint.DashSetting | cutout/shapes.py:62-63 | the dash pattern is the style's base pattern with every entry multiplied by the line width |
| Paint.CapSetting | cutout/shapes.py:65-68 | a cap is set exactly when a line colour is given. It is round for the dotted styles whatever cap was asked for, and the requested cap otherwise |
| Paint.JoinAndWidthSettings | cutout/shapes.py:60-70 | a line width and a line join are set exactly when a line colour is given, and they are the ones asked for |
| Outlines.Max | cutout/shapes.py:210-212 | np.max returns an entry that bounds every entry from above |
| Outlines.Min | cutout/shapes.py:211-213 | np.min returns an entry that bounds every entry from below |
| Outlines.SpanPivotIsHalfSpan | cutout/shapes.py:210-214 | each pivot coordinate is non-negative, and twice it is the largest difference between two points' coordinates on that axis |
| Outlines.SpanPivotIgnoresPlacement | cutout/shapes.py:269-273 | moving every point by the same offset leaves the pivot unchanged, so the pivot does not follow the shape |
| Outlines.PolylineEmission | cutout/shapes.py:224-231 | the path is move_to the first point, then line_to each other point in order, and nothing else |
| Outlines.CirclePoints | cutout/shapes.py:335-337 | there are exactly n points, and with cos² + sin² = 1 every one of them lies at distance radius from the centre |
| Outlines.RegularPolygonLayout | cutout/shapes.py:335-339 | there are n vertices, n steps make a full turn, and vertex k is position + radius·(cos, sin)(k·2π/n) |
| Outlines.OnCircleDistance | cutout/shapes.py:336-337 | with cos² + sin² = 1, a computed point lies at distance radius from the centre |
| Outlines.RegularPolygonOnCircle | cutout/shapes.py:335-339 | every vertex lies at distance radius from the position, and the first one lies on the positive x axis |
| Outlines.Interleave | cutout/shapes.py:398-405 | the result is twice as long as each input, with a[k] at 2k and b[k] at 2k+1 |
| Outlines.StarLayout | cutout/shapes.py:388-405 | there are 2n vertices. Even vertex 2k is on the external radius at angle k·step, and odd vertex 2k+1 is on the internal radius half a step later |
| Outlines.HalfStep | cutout/shapes.py:388-394 | the half step by which inner vertices lag is pi/n, and n steps make a full turn |
| Outlines.StarRadii | cutout/shapes.py:388-405 | even vertices lie on the external circle and odd ones on the internal circle |
| Outlines.ArrowLengthPositive | cutout/shapes.py:441 | the shaft length is positive exactly when the vector is non-zero, and its square is the vector's squared norm |
| Outlines.ClampHead | cutout/shapes.py:453-467 | the head is unchanged unless min_head_length is truthy and binding. A shaft shorter than the minimum makes the head the whole shaft, keeping the aspect ratio. Otherwise a head shorter than the minimum is lengthened to exactly the minimum, keeping the aspect ratio |
| Outlines.ClampReachesMinimum | cutout/shapes.py:453-467 | a shaft at least min_head_length long gets a head at least that long, and a shorter shaft gets a head as long as the shaft |
| Outlines.HeadGeometry | cutout/shapes.py:469-480 | point 0 is the tip. The back corners are symmetric about origin + (1 - head length)·vector, and the line between them is perpendicular to the shaft. The notch is on the shaft at origin + (1 - 0.8·head length)·vector |
| Outlines.HeadBaseWidth | cutout/shapes.py:469-480 | when length is the shaft length, the back corners are head width · length apart |
| Outlines.RoundedRectContinuity | cutout/shapes.py:592-627 | the move_to point and every line_to target are where the following arc starts, so the outline has no jumps |
| Outlines.RoundedRectSweep | cutout/shapes.py:619-626 | the four arcs sweep consecutively from 0 to 2π, each a quarter turn of the corner radius |
| Outlines.RoundedRectInsets | cutout/shapes.py:602-617 | each arc centre is inset from its corner of the rectangle by the corner radius on both axes, towards the inside |
| Outlines.RoundedRectSides | cutout/shapes.py:592-627 | each arc ends on the side that the following straight piece runs along, and the last arc ends on the side that close_path returns along |
| Shapes.Framed | cutout/shapes.py:157-187 | the save, transform, path, paint, restore pattern fails exactly when the options are rejected |
| Shapes.FramedOpening | cutout/shapes.py:157-174 | a framed draw opens with save and then the transform, followed by the path unchanged, whether or not the style is accepted |
| Shapes.FramedSuccess | cutout/shapes.py:176-187 | with accepted options, the path is followed by exactly the calls of paint_paths and then the draw's one and only restore |
| Shapes.FramedFailure | cutout/shapes.py:176-187 | with rejected options the draw stops after the path with paint_paths' error, and no restore is made |
| Shapes.Draw | cutout/shapes.py:41-52 | every shape's draw fails exactly when an option the shape passes on is outside its table. Circle and Arrow are checked on line style only |
| Shapes.StyleOptions | cutout/shapes.py:116-125 | the options a framed shape hands to paint_paths are accepted exactly when the shape's own are; a circle's fixed butt cap and mitter join are always accepted |
| Shapes.ArrowDrawFailure | cutout/shapes.py:482-551 | an arrow's draw fails exactly when its line style is unknown |
| Shapes.HeadAccepted | cutout/shapes.py:498-540 | with a known line style, any of the three heads is drawn without error |
| Shapes.SaveFirst | cutout/shapes.py:100-102 | every draw except the arrow's opens with save |
| Shapes.RestoreOnSuccessOnly | cutout/shapes.py:116-127 | a successful draw, other than the arrow's, ends with its only restore. A failed one contains no restore, since the code has no try/finally |
| Shapes.CircleDraw | cutout/shapes.py:100-114 | the circle is rotated about its position and is one full-turn arc of its radius about that position |
| Shapes.CirclePaint | cutout/shapes.py:116-127 | with a known line style the circle draws without error, and after the arc come exactly the calls of paint_paths with cap "butt" and join "mitter", then restore |
| Shapes.CircleStroke | cutout/shapes.py:116-125 | with a line colour, a circle's stroke sets the miter join; every join and cap set is miter and butt (round for dotted styles), whatever cap and join its style names |
| Shapes.RectangleDraw | cutout/shapes.py:157-174 | the rectangle is rotated about its position and drawn as a cairo rectangle of its width and height, centred on that position |
| Shapes.LinesDraw | cutout/shapes.py:216-242 | the polyline is rotated about its half-span pivot and drawn through its points in order. It has no close_path and never a fill_preserve, whatever fill colour its style holds |
| Shapes.OpenPolylineDraw | cutout/shapes.py:224-231 | a framed open polyline is move_to the first point, then line_to each other point in order |
| Shapes.OpenPolylineUnfilled | cutout/shapes.py:227-242 | with the fill colour dropped, an open polyline draw makes no close_path and no fill_preserve |
| Shapes.ClosedPolylineDraw | cutout/shapes.py:283-292 | a framed closed polyline is move_to the first point, then line_to each other point in order, then close_path |
| Shapes.PolygonDraw | cutout/shapes.py:275-292 | the polygon is rotated about its half-span pivot and drawn through its points in order, closed |
| Shapes.RegularPolygonDraw | cutout/shapes.py:341-356 | the regular polygon is drawn through its circle vertices, closed. Its pivot is overridden, so it rotates about its position and not about the polygon's half-span pivot |
| Shapes.StarDraw | cutout/shapes.py:407-422 | the star is drawn through its 2n alternating vertices, closed, and rotated about its position |
| Shapes.RoundedRectangleDraw | cutout/shapes.py:583-627 | the rounded rectangle is rotated about its position and drawn as its line-and-arc outline |
| Shapes.Unrotated | cutout/shapes.py:278-281 | with cos 0 = 1 and sin 0 = 0, a shape at orientation 0 gets the identity transform, whatever its pivot |
| Shapes.TriangleHead | cutout/shapes.py:498-510 | a "triangle" head is the closed polyline tip, back corner, back corner. It is drawn unrotated with Polygon's defaults, filled and stroked in the line colour |
| Shapes.StrokeHead | cutout/shapes.py:512-527 | a "stroke" head is the open polyline back corner, tip, back corner. It is drawn unrotated and stroked with the arrow's colour, width and style, and never filled |
| Shapes.NotchedHead | cutout/shapes.py:529-540 | an "arrow" head is the closed polyline through all four head points, notch included. It is filled and stroked in the line colour |
| Shapes.ArrowShaft | cutout/shapes.py:482-485 | an arrow starts with the shaft: move_to the origin, line_to origin + vector |
| Shapes.ArrowLayout | cutout/shapes.py:482-551 | with a known line style an arrow draws without error, as the shaft's move_to and line_to, the shaft's stroke, the head's own draw, then a fill in the line colour (no calls when there is no line colour) |
| Shapes.ArrowWithoutHead | cutout/shapes.py:498-551 | an unknown head style draws no head, and then the arrow makes no save or restore at all |

## Left out

- Rendering: what cairo paints is not modelled. The surface is the sequence of calls made on it.
- Colour lookup: `colors.get_color` is not part of this model. A colour stays its name, handed to `SetSourceRgba` together with the opacity.
- Floating point: reals stand in for Python floats and numpy arrays. Rounding, NaN and infinities are not modelled.
- Cosine, sine, square root and pi are parameters (`RealMath.Funcs`). Properties that need facts about them require those facts explicitly.
- Outlines.CirclePoints: `np.arange(start, 2π, step)` is taken to yield exactly n angles. Rounding can make numpy yield one more or one fewer, and the model does not cover that.
- Shapes.WellFormed: inputs on which the source crashes are excluded by precondition, not modelled as errors. These are an empty point list (for a plain `[]`, `np.array` at cutout/shapes.py:202 and 260 makes a one-dimensional array, so `self.points[:, 0]` at lines 210 and 269 raises `IndexError` before `np.max` runs), zero faces or star points (`2 * np.pi / 0` raises), and a zero head length where the clamping divides by it (line 457 or 464 raises).
- Shapes.Shape: the face and point counts of `RegularPolygon` and `Star` are naturals, and other counts are not modelled. A negative count makes `np.arange` at cutout/shapes.py:335 and 390 empty, and the draw then fails on the empty point array. For `RegularPolygon` a non-integer count such as 4.5 gives ceil(4.5) = 5 angles at line 335, a polygon that is not regular. For `Star` a non-integer count n gives ceil(n) external angles (line 390) but only ceil(n - 0.5) internal ones (line 394). When the fractional part is at most one half, as for 4.3 (5 against 4), the loop at line 400 reads past the end of `x_int` at line 403 and the constructor raises `IndexError`. When it is above one half, as for 4.7 (5 and 5), a star is built, but it is not regular.
- Shapes.WellFormed: an arrow with a zero vector is excluded too, although the source does not raise on it. At cutout/shapes.py:451 the numpy division by a zero length gives NaN head points. The model works over the reals, where NaN does not exist, so this case is not modelled.
- Paint.PaintPaths: the text of the `ValueError` is not modelled, only which option it names. The join error's text lists the cap keys (cutout/shapes.py:51); that is cosmetic.
- Constructors: the default arguments of the shape constructors are not modelled as defaults. A `Shape` value carries every parameter explicitly.
- RoundedRectangle: the `corner_radius=None` default is not modelled. With `None` the source crashes in `draw`. The model takes a real radius and does not check it against the width and height, as the source does not.
- Paint.DashSetting: the generator that `paint_paths` hands to `set_dash` is modelled as the finished sequence of scaled dashes.
- Save and restore: the cairo state stack itself is not modelled. Only the `save` and `restore` calls in the trace are.
- Arrow.draw: the final `paint_paths` fills whatever path is current with the line colour. The model records the calls; their visual effect is not modelled.

=== FILE: geometry.dfy ===
/** Points of the plane and the vector arithmetic that numpy performs on them. */
module Geometry {

  /** A point, or a displacement, of the plane. */
  datatype Point = Point(x: real, y: real)

  function Add(p: Point, q: Point): Point {
    Point(p.x + q.x, p.y + q.y)
  }

  function Sub(p: Point, q: Point): Point {
    Point(p.x - q.x, p.y - q.y)
  }

  /** The vector `v` multiplied by the scalar `k`. */
  function Scale(k: real, v: Point): Point {
    Point(k * v.x, k * v.y)
  }

  function Dot(u: Point, v: Point): real {
    u.x * v.x + u.y * v.y
  }

  /** Squared Euclidean length of a vector. */
  function Norm2(v: Point): real {
    Dot(v, v)
  }

  /** Squared Euclidean distance between two points. */
  function Dist2(p: Point, q: Point): real {
    Norm2(Sub(p, q))
  }

  /** The midpoint of the segment from `p` to `q`. */
  function Midpoint(p: Point, q: Point): Point {
    Point((p.x + q.x) / 2.0, (p.y + q.y) / 2.0)
  }
}

=== FILE: outlines.dfy ===
/** The geometry each shape of `cutout/shapes.py` derives from its parameters
    before drawing: polyline paths and their rotation pivot, vertices on
    circles for regular polygons and stars, the arrow head, and the path of a
    rounded rectangle. */
module Outlines {
  import opened Geometry
  import opened Wrappers
  import opened RealMath
  import opened Surface

  // ----------------------------------------------------------------------------
  // Lines and Polygon: path and pivot

  /** The largest entry, as `np.max`. */
  function Max(xs: seq<real>): (m: real)
    requires |xs| > 0
    ensures m in xs
    ensures forall i :: 0 <= i < |xs| ==> xs[i] <= m
  {
    if |xs| == 1 then xs[0]
    else
      var rest := Max(xs[1..]);
      assert forall i :: 1 <= i < |xs| ==> xs[i] == xs[1..][i - 1];
      if xs[0] >= rest then xs[0] else rest
  }

  /** The smallest entry, as `np.min`. */
  function Min(xs: seq<real>): (m: real)
    requires |xs| > 0
    ensures m in xs
    ensures forall i :: 0 <= i < |xs| ==> m <= xs[i]
  {
    if |xs| == 1 then xs[0]
    else
      var rest := Min(xs[1..]);
      assert forall i :: 1 <= i < |xs| ==> xs[i] == xs[1..][i - 1];
      if xs[0] <= rest then xs[0] else rest
  }

  /** The column of x coordinates, `points[:, 0]`. */
  function Xs(ps: seq<Point>): seq<real> {
    seq(|ps|, i requires 0 <= i < |ps| => ps[i].x)
  }

  /** The column of y coordinates, `points[:, 1]`. */
  function Ys(ps: seq<Point>): seq<real> {
    seq(|ps|, i requires 0 <= i < |ps| => ps[i].y)
  }

  /** The pivot `Lines` and `Polygon` compute at construction: half the span of
      the bounding box on each axis (not the box's centre). */
  function SpanPivot(ps: seq<Point>): Point
    requires |ps| > 0
  {
    Point((Max(Xs(ps)) - Min(Xs(ps))) / 2.0, (Max(Ys(ps)) - Min(Ys(ps))) / 2.0)
  }

  /** The `line_to` calls for the points, in order. */
  function LineTos(ps: seq<Point>): (r: seq<Cmd>)
    ensures |r| == |ps|
    ensures forall i :: 0 <= i < |ps| ==> r[i] == LineTo(ps[i])
  {
    if |ps| == 0 then [] else [LineTo(ps[0])] + LineTos(ps[1..])
  }

  /** The open path through the points: a `move_to` to the first one, then a
      `line_to` to each of the others. */
  function PolylinePath(ps: seq<Point>): seq<Cmd>
    requires |ps| > 0
  {
    [MoveTo(ps[0])] + LineTos(ps[1..])
  }

  /** The entries of `xs` shifted by `d`. */
  function Shift(xs: seq<real>, d: real): (r: seq<real>)
    ensures |r| == |xs|
    ensures forall i :: 0 <= i < |xs| ==> r[i] == xs[i] + d
  {
    seq(|xs|, i requires 0 <= i < |xs| => xs[i] + d)
  }

  /** Only one entry of a sequence can bound all the others from above. */
  lemma MaxIsUnique(xs: seq<real>, m: real)
    requires |xs| > 0 && m in xs
    requires forall i :: 0 <= i < |xs| ==> xs[i] <= m
    ensures Max(xs) == m
  {
    var j :| 0 <= j < |xs| && xs[j] == Max(xs);
    var k :| 0 <= k < |xs| && xs[k] == m;
    assert xs[k] <= Max(xs) && xs[j] <= m;
  }

  /** Only one entry of a sequence can bound all the others from below. */
  lemma MinIsUnique(xs: seq<real>, m: real)
    requires |xs| > 0 && m in xs
    requires forall i :: 0 <= i < |xs| ==> m <= xs[i]
    ensures Min(xs) == m
  {
    var j :| 0 <= j < |xs| && xs[j] == Min(xs);
    var k :| 0 <= k < |xs| && xs[k] == m;
    assert Min(xs) <= xs[k] && m <= xs[j];
  }

  /** Shifting every entry shifts the maximum by the same amount. */
  lemma ShiftMax(xs: seq<real>, d: real)
    requires |xs| > 0
    ensures Max(Shift(xs, d)) == Max(xs) + d
  {
    var ys, m := Shift(xs, d), Max(xs);
    var i :| 0 <= i < |xs| && xs[i] == m;
    assert ys[i] == m + d;
    MaxIsUnique(ys, m + d);
  }

  /** Shifting every entry shifts the minimum by the same amount. */
  lemma ShiftMin(xs: seq<real>, d: real)
    requires |xs| > 0
    ensures Min(Shift(xs, d)) == Min(xs) + d
  {
    var ys, m := Shift(xs, d), Min(xs);
    var i :| 0 <= i < |xs| && xs[i] == m;
    assert ys[i] == m + d;
    MinIsUnique(ys, m + d);
  }

  /** The path visits the points in order: `move_to` the first, then `line_to`
      each of the others, and nothing else. */
  lemma PolylineEmission(ps: seq<Point>)
    requires |ps| > 0
    ensures |PolylinePath(ps)| == |ps|
    ensures PolylinePath(ps)[0] == MoveTo(ps[0])
    ensures forall i :: 1 <= i < |ps| ==> PolylinePath(ps)[i] == LineTo(ps[i])
  {
    var path := PolylinePath(ps);
    forall i | 1 <= i < |ps|
      ensures path[i] == LineTo(ps[i])
    {
      assert path[i] == LineTos(ps[1..])[i - 1];
    }
  }

  /** The pivot is half the bounding-box span: twice its x (y) coordinate is
      the largest difference between two points' x (y) coordinates. */
  lemma SpanPivotIsHalfSpan(ps: seq<Point>)
    requires |ps| > 0
    ensures 0.0 <= SpanPivot(ps).x && 0.0 <= SpanPivot(ps).y
    ensures forall i, j :: 0 <= i < |ps| && 0 <= j < |ps| ==>
              ps[i].x - ps[j].x <= 2.0 * SpanPivot(ps).x && ps[i].y - ps[j].y <= 2.0 * SpanPivot(ps).y
    ensures exists i, j :: 0 <= i < |ps| && 0 <= j < |ps| && ps[i].x - ps[j].x == 2.0 * SpanPivot(ps).x
    ensures exists i, j :: 0 <= i < |ps| && 0 <= j < |ps| && ps[i].y - ps[j].y == 2.0 * SpanPivot(ps).y
  {
    var xs, ys := Xs(ps), Ys(ps);
    assert forall i :: 0 <= i < |ps| ==> xs[i] == ps[i].x && ys[i] == ps[i].y;
    var a :| 0 <= a < |ps| && xs[a] == Max(xs);
    var b :| 0 <= b < |ps| && xs[b] == Min(xs);
    assert ps[a].x - ps[b].x == 2.0 * SpanPivot(ps).x;
    var c :| 0 <= c < |ps| && ys[c] == Max(ys);
    var d :| 0 <= d < |ps| && ys[d] == Min(ys);
    assert ps[c].y - ps[d].y == 2.0 * SpanPivot(ps).y;
  }

  /** Moving every point by the same offset leaves the pivot where it was:
      the pivot does not follow the shape. */
  lemma SpanPivotIgnoresPlacement(ps: seq<Point>, d: Point)
    requires |ps| > 0
    ensures SpanPivot(Translate(ps, d)) == SpanPivot(ps)
  {
    TranslateColumns(ps, d);
    ShiftMax(Xs(ps), d.x);
    ShiftMin(Xs(ps), d.x);
    ShiftMax(Ys(ps), d.y);
    ShiftMin(Ys(ps), d.y);
  }

  /** Every point moved by `d`. */
  function Translate(ps: seq<Point>, d: Point): (r: seq<Point>)
    ensures |r| == |ps|
    ensures forall i :: 0 <= i < |ps| ==> r[i] == Add(ps[i], d)
  {
    seq(|ps|, i requires 0 <= i < |ps| => Add(ps[i], d))
  }

  /** Moving the points shifts each column of coordinates. */
  lemma TranslateColumns(ps: seq<Point>, d: Point)
    ensures Xs(Translate(ps, d)) == Shift(Xs(ps), d.x)
    ensures Ys(Translate(ps, d)) == Shift(Ys(ps), d.y)
  {
    var qs := Translate(ps, d);
    assert Xs(qs) == Shift(Xs(ps), d.x);
    assert Ys(qs) == Shift(Ys(ps), d.y);
  }

  // ----------------------------------------------------------------------------
  // RegularPolygon and Star: vertices on circles

  /** The point at `angle` on the circle of radius `radius` about `centre`,
      computed as the source does: `radius * cos(angle) + centre.x`, ... */
  function OnCircle(f: Funcs, centre: Point, radius: real, angle: real): Point {
    Point(radius * f.cos(angle) + centre.x, radius * f.sin(angle) + centre.y)
  }

  /** Entry `k` of `np.arange(start, 2 * pi, step)`. */
  function Angle(start: real, step: real, k: int): real {
    start + (k as real) * step
  }

  /** The points at the `n` angles of `np.arange(start, 2 * pi, step)`, taken
      to have exactly `n` entries.  Given cos^2 + sin^2 = 1, every one of them
      lies on the circle of radius `radius` about `centre`. */
  function CirclePoints(f: Funcs, centre: Point, radius: real, start: real, step: real, n: nat): (r: seq<Point>)
    ensures |r| == n
    ensures forall k :: 0 <= k < n ==> r[k] == OnCircle(f, centre, radius, Angle(start, step, k))
    ensures Pythagorean(f) ==> forall k :: 0 <= k < n ==> Dist2(r[k], centre) == radius * radius
  {
    var r := seq(n, k requires 0 <= k < n => OnCircle(f, centre, radius, Angle(start, step, k)));
    assert Pythagorean(f) ==> forall k :: 0 <= k < n ==> Dist2(r[k], centre) == radius * radius by {
      if Pythagorean(f) {
        forall k | 0 <= k < n
          ensures Dist2(r[k], centre) == radius * radius
        {
          OnCircleDistance(f, centre, radius, Angle(start, step, k));
        }
      }
    }
    r
  }

  /** The angle between consecutive vertices, `2 * pi / n`. */
  function Step(f: Funcs, n: nat): real
    requires n > 0
  {
    2.0 * f.pi / (n as real)
  }

  /** The vertices `RegularPolygon` computes at construction. */
  function RegularPolygonVertices(f: Funcs, n: nat, radius: real, position: Point): seq<Point>
    requires n > 0
  {
    CirclePoints(f, position, radius, 0.0, Step(f, n), n)
  }

  /** The sequence `a[0], b[0], a[1], b[1], ...` that `Star` builds in its loop. */
  function Interleave(a: seq<Point>, b: seq<Point>): (r: seq<Point>)
    requires |a| == |b|
    ensures |r| == 2 * |a|
    ensures forall k :: 0 <= k < |a| ==> r[2 * k] == a[k] && r[2 * k + 1] == b[k]
  {
    if |a| == 0 then []
    else
      var rest := Interleave(a[1..], b[1..]);
      assert forall k :: 1 <= k < |a| ==> a[k] == a[1..][k - 1] && b[k] == b[1..][k - 1];
      assert forall k :: 1 <= k < |a| ==> ([a[0], b[0]] + rest)[2 * k] == rest[2 * (k - 1)];
      assert forall k :: 1 <= k < |a| ==> ([a[0], b[0]] + rest)[2 * k + 1] == rest[2 * (k - 1) + 1];
      [a[0], b[0]] + rest
  }

  /** The vertices `Star` computes at construction: the outer points at angles
      `0, step, ...` interleaved with the inner points half a step later. */
  function StarVertices(f: Funcs, n: nat, externalRadius: real, internalRadius: real, position: Point): seq<Point>
    requires n > 0
  {
    var step := Step(f, n);
    Interleave(CirclePoints(f, position, externalRadius, 0.0, step, n),
               CirclePoints(f, position, internalRadius, step / 2.0, step, n))
  }

  /** Points computed by `OnCircle` lie on the circle. */
  lemma OnCircleDistance(f: Funcs, centre: Point, radius: real, angle: real)
    requires Pythagorean(f)
    ensures Dist2(OnCircle(f, centre, radius, angle), centre) == radius * radius
  {
    var c, s := f.cos(angle), f.sin(angle);
    assert c * c + s * s == 1.0;
    calc {
      Dist2(OnCircle(f, centre, radius, angle), centre);
      (radius * c) * (radius * c) + (radius * s) * (radius * s);
      radius * radius * (c * c + s * s);
      radius * radius;
    }
  }

  /** Vertex `k` of a regular polygon is `position + radius * (cos(k step),
      sin(k step))` with `step = 2 pi / n`; there are `n` of them, and the
      last is one step short of a full turn. */
  lemma RegularPolygonLayout(f: Funcs, n: nat, radius: real, position: Point)
    requires n > 0
    ensures var v := RegularPolygonVertices(f, n, radius, position);
      && |v| == n
      && (n as real) * Step(f, n) == 2.0 * f.pi
      && forall k :: 0 <= k < n ==>
           v[k] == Add(position, Scale(radius, Point(f.cos((k as real) * Step(f, n)), f.sin((k as real) * Step(f, n)))))
  {
    HalfStep(f, n);
    CirclePointsFromZero(f, position, radius, Step(f, n), n);
    assert RegularPolygonVertices(f, n, radius, position) == CirclePoints(f, position, radius, 0.0, Step(f, n), n);
  }

  /** Point `k` of the circle points from angle 0 is the centre plus the
      radius times the unit vector at angle `k step`. */
  lemma CirclePointsFromZero(f: Funcs, centre: Point, radius: real, step: real, n: nat)
    ensures var v := CirclePoints(f, centre, radius, 0.0, step, n);
      forall k :: 0 <= k < n ==>
        v[k] == Add(centre, Scale(radius, Point(f.cos((k as real) * step), f.sin((k as real) * step))))
  {
    var v := CirclePoints(f, centre, radius, 0.0, step, n);
    forall k | 0 <= k < n
      ensures v[k] == Add(centre, Scale(radius, Point(f.cos((k as real) * step), f.sin((k as real) * step))))
    {
      assert Angle(0.0, step, k) == (k as real) * step;
    }
  }

  /** All vertices of a regular polygon lie at distance `radius` from its
      position, and the first lies on the positive x axis. */
  lemma RegularPolygonOnCircle(f: Funcs, n: nat, radius: real, position: Point)
    requires n > 0 && Pythagorean(f) && ZeroAngle(f)
    ensures var v := RegularPolygonVertices(f, n, radius, position);
      && (forall k :: 0 <= k < n ==> Dist2(v[k], position) == radius * radius)
      && v[0] == Point(position.x + radius, position.y)
  {
    var v := RegularPolygonVertices(f, n, radius, position);
    forall k | 0 <= k < n
      ensures Dist2(v[k], position) == radius * radius
    {
      OnCircleDistance(f, position, radius, Angle(0.0, Step(f, n), k));
    }
    assert Angle(0.0, Step(f, n), 0) == 0.0;
  }

  /** A star has `2n` vertices: the even ones on the external radius at angles
      `k step`, the odd ones on the internal radius half a step further on. */
  lemma StarLayout(f: Funcs, n: nat, externalRadius: real, internalRadius: real, position: Point)
    requires n > 0
    ensures var v := StarVertices(f, n, externalRadius, internalRadius, position);
      && |v| == 2 * n
      && forall k :: 0 <= k < n ==>
           && v[2 * k] == OnCircle(f, position, externalRadius, Angle(0.0, Step(f, n), k))
           && v[2 * k + 1] == OnCircle(f, position, internalRadius, Angle(0.0, Step(f, n), k) + Step(f, n) / 2.0)
  {
    var step := Step(f, n);
    var outer := CirclePoints(f, position, externalRadius, 0.0, step, n);
    var inner := CirclePoints(f, position, internalRadius, step / 2.0, step, n);
    var v := Interleave(outer, inner);
    forall k | 0 <= k < n
      ensures v[2 * k] == OnCircle(f, position, externalRadius, Angle(0.0, step, k))
      ensures v[2 * k + 1] == OnCircle(f, position, internalRadius, Angle(0.0, step, k) + step / 2.0)
    {
      assert v[2 * k] == outer[k] && v[2 * k + 1] == inner[k];
      assert Angle(step / 2.0, step, k) == Angle(0.0, step, k) + step / 2.0;
    }
  }

  /** Half a step is `pi / n`: each inner vertex sits midway, in angle, between
      two outer ones. */
  lemma HalfStep(f: Funcs, n: nat)
    requires n > 0
    ensures Step(f, n) / 2.0 == f.pi / (n as real)
    ensures (n as real) * Step(f, n) == 2.0 * f.pi
  {
  }

  /** Even vertices of a star lie on the external circle, odd ones on the internal one. */
  lemma StarRadii(f: Funcs, n: nat, externalRadius: real, internalRadius: real, position: Point)
    requires n > 0 && Pythagorean(f)
    ensures var v := StarVertices(f, n, externalRadius, internalRadius, position);
      forall j :: 0 <= j < |v| ==>
        Dist2(v[j], position) == (if j % 2 == 0 then externalRadius * externalRadius else internalRadius * internalRadius)
  {
    var v := StarVertices(f, n, externalRadius, internalRadius, position);
    var step := Step(f, n);
    StarLayout(f, n, externalRadius, internalRadius, position);
    forall j | 0 <= j < |v|
      ensures Dist2(v[j], position) == (if j % 2 == 0 then externalRadius * externalRadius else internalRadius * internalRadius)
    {
      var k := j / 2;
      if j % 2 == 0 {
        assert j == 2 * k;
        OnCircleDistance(f, position, externalRadius, Angle(0.0, step, k));
      } else {
        assert j == 2 * k + 1;
        OnCircleDistance(f, position, internalRadius, Angle(0.0, step, k) + step / 2.0);
      }
    }
  }

  // ----------------------------------------------------------------------------
  // Arrow: head size and head points

  /** Python truthiness of `min_head_length`: neither `None` nor zero. */
  predicate Truthy(x: Option<real>) {
    x.Some? && x.value != 0.0
  }

  /** Head length and width, as fractions of the shaft length. */
  datatype Head = Head(length: real, width: real)

  /** Whether the clamping in `Arrow.__init__` divides by the head length. */
  predicate ClampDivides(length: real, headLength: real, minHeadLength: Option<real>) {
    Truthy(minHeadLength) && (length < minHeadLength.value || headLength * length < minHeadLength.value)
  }

  /** The head size after `Arrow.__init__` enforces `min_head_length` on an
      arrow of the given shaft length. */
  function ClampHead(length: real, headLength: real, headWidth: real, minHeadLength: Option<real>): (r: Head)
    requires length > 0.0
    requires ClampDivides(length, headLength, minHeadLength) ==> headLength != 0.0
    ensures !ClampDivides(length, headLength, minHeadLength) ==> r == Head(headLength, headWidth)
    ensures Truthy(minHeadLength) && length < minHeadLength.value ==>
              r.length == 1.0 && r.width == headWidth / headLength
    ensures Truthy(minHeadLength) && minHeadLength.value <= length && headLength * length < minHeadLength.value ==>
              && r.length * length == minHeadLength.value
              && r.length != 0.0
              && r.width / r.length == headWidth / headLength
  {
    if Truthy(minHeadLength) then
      var min := minHeadLength.value;
      if length < min then
        var aspect := headWidth / headLength;
        Head(1.0, aspect)
      else if headLength * length < min then
        var aspect := headWidth / headLength;
        var newLength := min / length;
        Head(newLength, aspect * newLength)
      else
        Head(headLength, headWidth)
    else
      Head(headLength, headWidth)
  }

  /** The shaft length, `sqrt(vx^2 + vy^2)`. */
  function ArrowLength(f: Funcs, vector: Point): real {
    f.sqrt(vector.x * vector.x + vector.y * vector.y)
  }

  /** `arrow_head_points`: the tip, the first back corner, the inner notch and
      the second back corner. */
  function HeadPoints(origin: Point, vector: Point, length: real, head: Head): (r: seq<Point>)
    requires length != 0.0
    ensures |r| == 4
  {
    var normal := Point(-vector.y / length, vector.x / length);
    var offset := Point(normal.x * (head.width / 2.0) * length, normal.y * (head.width / 2.0) * length);
    var back := Add(origin, Scale(1.0 - head.length, vector));
    [Add(origin, vector),
     Add(back, offset),
     Add(origin, Scale(1.0 - 0.8 * head.length, vector)),
     Sub(back, offset)]
  }

  /** With a positive shaft length, a zero head length is the only way the
      clamping can divide by zero, and it never shortens a head below
      `min_head_length`. */
  lemma ClampReachesMinimum(length: real, headLength: real, headWidth: real, minHeadLength: Option<real>)
    requires length > 0.0
    requires ClampDivides(length, headLength, minHeadLength) ==> headLength != 0.0
    requires Truthy(minHeadLength)
    ensures var r := ClampHead(length, headLength, headWidth, minHeadLength);
      && (minHeadLength.value <= length ==> minHeadLength.value <= r.length * length)
      && (length < minHeadLength.value ==> r.length * length == length)
  {
  }

  /** The offset from the back point to a back corner: the unit normal
      scaled by `head width / 2 * length`, which is `head width / 2` times the
      vector turned a quarter turn. */
  lemma HeadOffset(vector: Point, length: real, width: real)
    requires length != 0.0
    ensures (-vector.y / length) * (width / 2.0) * length == -vector.y * (width / 2.0)
    ensures (vector.x / length) * (width / 2.0) * length == vector.x * (width / 2.0)
  {
    assert (-vector.y / length) * length == -vector.y;
    assert (vector.x / length) * length == vector.x;
  }

  /** The geometry of the head: the back corners are symmetric about the point
      `origin + (1 - head length) vector` and perpendicular to the shaft, and
      the notch lies on the shaft at `origin + (1 - 0.8 head length) vector`. */
  lemma HeadGeometry(origin: Point, vector: Point, length: real, head: Head)
    requires length != 0.0
    ensures var p := HeadPoints(origin, vector, length, head);
      && p[0] == Add(origin, vector)
      && Midpoint(p[1], p[3]) == Add(origin, Scale(1.0 - head.length, vector))
      && Sub(p[1], p[3]) == Scale(head.width, Point(-vector.y, vector.x))
      && Dot(Sub(p[1], p[3]), vector) == 0.0
      && p[2] == Add(origin, Scale(1.0 - 0.8 * head.length, vector))
  {
    var p := HeadPoints(origin, vector, length, head);
    var hw := head.width;
    HeadOffset(vector, length, hw);
    var d := Sub(p[1], p[3]);
    assert d == Scale(hw, Point(-vector.y, vector.x));
    assert Dot(d, vector) == hw * (-vector.y * vector.x + vector.x * vector.y);
  }

  /** When `length` is the shaft length, the back corners are
      `head width * length` apart. */
  lemma HeadBaseWidth(vector: Point, length: real, width: real)
    requires length * length == Norm2(vector)
    ensures Norm2(Scale(width, Point(-vector.y, vector.x))) == (width * length) * (width * length)
  {
    calc {
      Norm2(Scale(width, Point(-vector.y, vector.x)));
      (width * -vector.y) * (width * -vector.y) + (width * vector.x) * (width * vector.x);
      (width * width) * (vector.x * vector.x + vector.y * vector.y);
      (width * width) * (length * length);
      (width * length) * (width * length);
    }
  }

  /** The shaft length is positive exactly when the vector is not zero. */
  lemma ArrowLengthPositive(f: Funcs, vector: Point)
    requires SquareRoot(f)
    ensures ArrowLength(f, vector) > 0.0 <==> vector != Point(0.0, 0.0)
    ensures ArrowLength(f, vector) * ArrowLength(f, vector) == Norm2(vector)
  {
    SumOfSquares(vector.x, vector.y);
    if vector == Point(0.0, 0.0) {
      assert vector.x * vector.x + vector.y * vector.y == 0.0;
    }
  }

  lemma SquareNonNegative(a: real)
    ensures 0.0 <= a * a
  {
  }

  lemma SquarePositive(a: real)
    requires a != 0.0
    ensures 0.0 < a * a
  {
  }

  /** A sum of two squares is never negative, and is zero only when both are. */
  lemma SumOfSquares(a: real, b: real)
    ensures 0.0 <= a * a + b * b
    ensures 0.0 < a * a + b * b <==> a != 0.0 || b != 0.0
  {
    SquareNonNegative(a);
    SquareNonNegative(b);
    if a != 0.0 { SquarePositive(a); }
    if b != 0.0 { SquarePositive(b); }
  }

  // ----------------------------------------------------------------------------
  // RoundedRectangle

  /** The path `RoundedRectangle.draw` builds: a `move_to`, then four quarter
      arcs joined by three `line_to`s, then `close_path`. */
  function RoundedRectPath(f: Funcs, position: Point, width: real, height: real, radius: real): (r: seq<Cmd>)
    ensures |r| == 9
  {
    var w, h := width / 2.0, height / 2.0;
    var p1 := Add(position, Point(w, h - radius));
    var p3 := Add(position, Point(-w + radius, h));
    var p5 := Add(position, Point(-w, -h + radius));
    var p7 := Add(position, Point(w - radius, -h));
    var c1 := Add(position, Point(w - radius, h - radius));
    var c2 := Add(position, Point(-w + radius, h - radius));
    var c3 := Add(position, Point(-w + radius, -h + radius));
    var c4 := Add(position, Point(w - radius, -h + radius));
    [MoveTo(p1),
     Arc(c1, radius, 0.0, f.pi / 2.0),
     LineTo(p3),
     Arc(c2, radius, f.pi / 2.0, f.pi),
     LineTo(p5),
     Arc(c3, radius, f.pi, 3.0 * f.pi / 2.0),
     LineTo(p7),
     Arc(c4, radius, 3.0 * f.pi / 2.0, 2.0 * f.pi),
     ClosePath]
  }

  /** Where an arc command starts. */
  function ArcStart(f: Funcs, c: Cmd): Point
    requires c.Arc?
  {
    Point(c.center.x + c.radius * f.cos(c.angle1), c.center.y + c.radius * f.sin(c.angle1))
  }

  /** Where an arc command ends. */
  function ArcEnd(f: Funcs, c: Cmd): Point
    requires c.Arc?
  {
    Point(c.center.x + c.radius * f.cos(c.angle2), c.center.y + c.radius * f.sin(c.angle2))
  }

  /** The rounded-rectangle path is continuous: the `move_to` point and every
      `line_to` target are where the following arc starts. */
  lemma RoundedRectContinuity(f: Funcs, position: Point, width: real, height: real, radius: real)
    requires ZeroAngle(f) && QuarterTurns(f)
    ensures var path := RoundedRectPath(f, position, width, height, radius);
      && path[0].MoveTo? && path[2].LineTo? && path[4].LineTo? && path[6].LineTo? && path[8] == ClosePath
      && path[1].Arc? && path[3].Arc? && path[5].Arc? && path[7].Arc?
      && path[0].to == ArcStart(f, path[1])
      && path[2].to == ArcStart(f, path[3])
      && path[4].to == ArcStart(f, path[5])
      && path[6].to == ArcStart(f, path[7])
  {
  }

  /** The four arcs sweep 0 to pi/2 to pi to 3pi/2 to 2pi, each a quarter turn
      of the corner radius. */
  lemma RoundedRectSweep(f: Funcs, position: Point, width: real, height: real, radius: real)
    ensures var path := RoundedRectPath(f, position, width, height, radius);
      && path[1].Arc? && path[3].Arc? && path[5].Arc? && path[7].Arc?
      && path[1].angle1 == 0.0 && path[7].angle2 == 2.0 * f.pi
      && path[1].angle2 == path[3].angle1 && path[3].angle2 == path[5].angle1 && path[5].angle2 == path[7].angle1
      && path[1].angle2 - path[1].angle1 == f.pi / 2.0
      && path[3].angle2 - path[3].angle1 == f.pi / 2.0
      && path[5].angle2 - path[5].angle1 == f.pi / 2.0
      && path[7].angle2 - path[7].angle1 == f.pi / 2.0
      && path[1].radius == radius && path[3].radius == radius && path[5].radius == radius && path[7].radius == radius
  {
  }

  /** Each arc's centre is inset by the corner radius on both axes from its
      corner of the rectangle, towards the inside. */
  lemma RoundedRectInsets(f: Funcs, position: Point, width: real, height: real, radius: real)
    ensures var path := RoundedRectPath(f, position, width, height, radius);
      var w, h := width / 2.0, height / 2.0;
      && path[1].Arc? && path[3].Arc? && path[5].Arc? && path[7].Arc?
      && Sub(Add(position, Point(w, h)), path[1].center) == Point(radius, radius)
      && Sub(Add(position, Point(-w, h)), path[3].center) == Point(-radius, radius)
      && Sub(Add(position, Point(-w, -h)), path[5].center) == Point(-radius, -radius)
      && Sub(Add(position, Point(w, -h)), path[7].center) == Point(radius, -radius)
  {
  }

  /** The straight pieces lie on the rectangle's sides: each arc ends on the
      side that the next `line_to` runs along, and the last arc ends on the
      right side, where `close_path` runs back to the start. */
  lemma RoundedRectSides(f: Funcs, position: Point, width: real, height: real, radius: real)
    requires QuarterTurns(f)
    ensures var path := RoundedRectPath(f, position, width, height, radius);
      var w, h := width / 2.0, height / 2.0;
      && path[0].MoveTo? && path[2].LineTo? && path[4].LineTo? && path[6].LineTo?
      && path[1].Arc? && path[3].Arc? && path[5].Arc? && path[7].Arc?
      && ArcEnd(f, path[1]).y == path[2].to.y == position.y + h
      && ArcEnd(f, path[3]).x == path[4].to.x == position.x - w
      && ArcEnd(f, path[5]).y == path[6].to.y == position.y - h
      && ArcEnd(f, path[7]).x == path[0].to.x == position.x + w
  {
  }
}

=== FILE: paint.dfy ===
/** `paint_paths` of `cutout/shapes.py`: the three option tables, the check of
    the requested options against them, and the fixed fill-then-stroke sequence
    of surface calls. */
module Paint {
  import opened Wrappers
  import opened Surface

  /** `LINE_STYLES`: the dash pattern of each line style, in line widths. */
  const LineStyles: map<string, seq<real>> :=
    map["--" := [4.0, 1.0], "-" := [], "." := [0.0, 2.0], "-." := [0.0, 2.0, 4.0, 2.0]]

  /** `LINE_CAPS`. */
  const LineCaps: map<string, LineCap> :=
    map["square" := CapSquare, "round" := CapRound, "butt" := CapButt]

  /** `LINE_JOINS`; the key for the miter join is spelled "mitter". */
  const LineJoins: map<string, LineJoin> :=
    map["bevel" := JoinBevel, "round" := JoinRound, "mitter" := JoinMiter]

  /** The `ValueError`s `paint_paths` raises, one per option it checks. */
  datatype StyleError = UnknownLineStyle | UnknownLineCap | UnknownLineJoin

  /** The arguments of `paint_paths` after the surface. */
  datatype PaintStyle = PaintStyle(
    fillColor: Option<Color>,
    lineColor: Option<Color>,
    lineWidth: real,
    lineStyle: string,
    lineCap: string,
    lineJoin: string,
    opacity: real)

  /** All three options name entries of their tables. */
  predicate ValidOptions(s: PaintStyle) {
    s.lineStyle in LineStyles && s.lineCap in LineCaps && s.lineJoin in LineJoins
  }

  /** The styles drawn as dots, whose cap is forced to round. */
  predicate Dotted(lineStyle: string) {
    lineStyle == "." || lineStyle == "-."
  }

  /** The dash pattern handed to the surface: the base pattern scaled by the line width. */
  function ScaledDash(lineWidth: real, base: seq<real>): (r: seq<real>)
    ensures |r| == |base|
    ensures forall k :: 0 <= k < |base| ==> r[k] == lineWidth * base[k]
  {
    seq(|base|, k requires 0 <= k < |base| => lineWidth * base[k])
  }

  /** The cap handed to the surface. */
  function EffectiveCap(s: PaintStyle): LineCap
    requires s.lineCap in LineCaps
  {
    if Dotted(s.lineStyle) then LineCaps["round"] else LineCaps[s.lineCap]
  }

  /** The calls made when a fill colour is given. */
  function FillCmds(s: PaintStyle): seq<Cmd> {
    match s.fillColor
    case None => []
    case Some(c) => [SetSourceRgba(c, s.opacity), FillPreserve]
  }

  /** The calls made when a line colour is given. */
  function StrokeCmds(s: PaintStyle): seq<Cmd>
    requires ValidOptions(s)
  {
    match s.lineColor
    case None => []
    case Some(c) =>
      [SetSourceRgba(c, s.opacity),
       SetLineWidth(s.lineWidth),
       SetDash(ScaledDash(s.lineWidth, LineStyles[s.lineStyle])),
       SetLineCap(EffectiveCap(s)),
       SetLineJoin(LineJoins[s.lineJoin]),
       Stroke]
  }

  /** `paint_paths`: the surface calls that fill and stroke the current path,
      or the error for the first option that is not in its table, in which
      case no call is made at all. */
  function PaintPaths(s: PaintStyle): (r: Result<seq<Cmd>, StyleError>)
    ensures r.Failure? <==> !ValidOptions(s)
    ensures r.Failure? && r.error == UnknownLineStyle ==> s.lineStyle !in LineStyles
    ensures r.Failure? && r.error == UnknownLineCap ==> s.lineStyle in LineStyles && s.lineCap !in LineCaps
    ensures r.Failure? && r.error == UnknownLineJoin ==>
              s.lineStyle in LineStyles && s.lineCap in LineCaps && s.lineJoin !in LineJoins
    ensures r.Success? ==> forall i :: 0 <= i < |r.value| ==> !IsPathCmd(r.value[i]) && r.value[i] != Save && r.value[i] != Restore
  {
    if s.lineStyle !in LineStyles then Failure(UnknownLineStyle)
    else if s.lineCap !in LineCaps then Failure(UnknownLineCap)
    else if s.lineJoin !in LineJoins then Failure(UnknownLineJoin)
    else Success(FillCmds(s) + StrokeCmds(s))
  }

  // ----------------------------------------------------------------------------
  // Properties

  /** The accepted options are exactly the keys of the three tables. */
  lemma TableKeys()
    ensures LineStyles.Keys == {"--", "-", ".", "-."}
    ensures LineCaps.Keys == {"square", "round", "butt"}
    ensures LineJoins.Keys == {"bevel", "round", "mitter"}
  {
  }

  /** `paint_paths` on accepted options is the fill calls then the stroke
      calls. */
  lemma PaintParts(s: PaintStyle)
    requires ValidOptions(s)
    ensures PaintPaths(s).value == FillCmds(s) + StrokeCmds(s)
  {
  }

  /** `FillPreserve` occurs only in the fill calls, once when there is a fill
      colour. */
  lemma FillCounts(s: PaintStyle)
    ensures multiset(FillCmds(s))[FillPreserve] == (if s.fillColor.Some? then 1 else 0)
    ensures multiset(FillCmds(s))[Stroke] == 0
  {
  }

  /** `Stroke` occurs only in the stroke calls, once when there is a line
      colour. */
  lemma StrokeCounts(s: PaintStyle)
    requires ValidOptions(s)
    ensures multiset(StrokeCmds(s))[Stroke] == (if s.lineColor.Some? then 1 else 0)
    ensures multiset(StrokeCmds(s))[FillPreserve] == 0
  {
  }

  /** Each of fill and stroke happens once exactly when its colour is given,
      the fill taking two calls and the stroke six; with neither colour
      nothing is issued. */
  lemma FillAndStrokeCounts(s: PaintStyle)
    requires ValidOptions(s)
    ensures var cmds := PaintPaths(s).value;
      && multiset(cmds)[FillPreserve] == (if s.fillColor.Some? then 1 else 0)
      && multiset(cmds)[Stroke] == (if s.lineColor.Some? then 1 else 0)
      && |cmds| == (if s.fillColor.Some? then 2 else 0) + (if s.lineColor.Some? then 6 else 0)
      && (s.fillColor.None? && s.lineColor.None? ==> cmds == [])
  {
    PaintParts(s);
    FillCounts(s);
    StrokeCounts(s);
    assert multiset(PaintPaths(s).value) == multiset(FillCmds(s)) + multiset(StrokeCmds(s));
  }

  /** Fill comes before stroke: every `fill_preserve` precedes every
      `stroke`. */
  lemma FillBeforeStroke(s: PaintStyle)
    requires ValidOptions(s)
    ensures var cmds := PaintPaths(s).value;
      forall i, j :: 0 <= i < |cmds| && 0 <= j < |cmds| && cmds[i] == FillPreserve && cmds[j] == Stroke ==> i < j
  {
    var fill, stroke := FillCmds(s), StrokeCmds(s);
    PaintParts(s);
    FillCounts(s);
    StrokeCounts(s);
    assert Stroke !in fill && FillPreserve !in stroke;
    OrderedParts(fill, stroke, FillPreserve, Stroke);
  }

  /** In `a + b`, a command found only in `a` comes before one found only in
      `b`. */
  lemma OrderedParts(a: seq<Cmd>, b: seq<Cmd>, x: Cmd, y: Cmd)
    requires x !in b && y !in a
    ensures forall i, j :: 0 <= i < |a + b| && 0 <= j < |a + b| && (a + b)[i] == x && (a + b)[j] == y ==> i < j
  {
  }

  /** Every call of `paint_paths` other than a colour or a fill belongs to
      the stroke calls. */
  lemma SettingsFromStroke(s: PaintStyle)
    requires ValidOptions(s)
    ensures forall c :: c in PaintPaths(s).value && !c.SetSourceRgba? && !c.FillPreserve? ==> c in StrokeCmds(s)
    ensures s.lineColor.Some? ==> forall c :: c in StrokeCmds(s) ==> c in PaintPaths(s).value
  {
    PaintParts(s);
  }

  /** The dash pattern is set exactly when there is a line colour. */
  lemma DashPresence(s: PaintStyle)
    requires ValidOptions(s)
    ensures s.lineColor.Some? <==> exists c :: c in PaintPaths(s).value && c.SetDash?
  {
    SettingsFromStroke(s);
    if s.lineColor.Some? {
      assert StrokeCmds(s)[2].SetDash?;
    }
  }

  /** The dash pattern handed to the surface is the style's base pattern with
      every entry multiplied by the line width. */
  lemma DashSetting(s: PaintStyle)
    requires ValidOptions(s)
    ensures var base := LineStyles[s.lineStyle];
      forall c :: c in PaintPaths(s).value && c.SetDash? ==>
        |c.dashes| == |base| && forall k :: 0 <= k < |base| ==> c.dashes[k] == s.lineWidth * base[k]
  {
    SettingsFromStroke(s);
    var dash := SetDash(ScaledDash(s.lineWidth, LineStyles[s.lineStyle]));
    assert forall c :: c in StrokeCmds(s) && c.SetDash? ==> c == dash;
  }

  /** The cap is set exactly when there is a line colour: round for the
      dotted styles whatever cap was asked for, the cap asked for
      otherwise. */
  lemma CapSetting(s: PaintStyle)
    requires ValidOptions(s)
    ensures var cmds := PaintPaths(s).value;
      && (s.lineColor.Some? <==> exists c :: c in cmds && c.SetLineCap?)
      && (forall c :: c in cmds && c.SetLineCap? ==>
            c.cap == (if Dotted(s.lineStyle) then CapRound else LineCaps[s.lineCap]))
  {
    SettingsFromStroke(s);
    var cap := SetLineCap(EffectiveCap(s));
    assert forall c :: c in StrokeCmds(s) && c.SetLineCap? ==> c == cap;
    if s.lineColor.Some? {
      assert StrokeCmds(s)[3] == cap;
    }
  }

  /** The join and the width are set exactly when there is a line colour,
      and they are the ones asked for. */
  lemma JoinAndWidthSettings(s: PaintStyle)
    requires ValidOptions(s)
    ensures var cmds := PaintPaths(s).value;
      && (s.lineColor.Some? <==> exists c :: c in cmds && c.SetLineJoin?)
      && (s.lineColor.Some? <==> exists c :: c in cmds && c.SetLineWidth?)
      && (forall c :: c in cmds && c.SetLineJoin? ==> c.join == LineJoins[s.lineJoin])
      && (forall c :: c in cmds && c.SetLineWidth? ==> c.width == s.lineWidth)
  {
    SettingsFromStroke(s);
    if s.lineColor.Some? {
      assert StrokeCmds(s)[1].SetLineWidth? && StrokeCmds(s)[4].SetLineJoin?;
    }
  }

  /** The settings the stroke is made with. */
  predicate StrokeSetting(c: Cmd) {
    c.SetLineWidth? || c.SetDash? || c.SetLineCap? || c.SetLineJoin?
  }

  /** The fill is made in the fill colour: the call just before each
      `fill_preserve` sets the source to the fill colour and the opacity. */
  lemma FillSource(s: PaintStyle)
    requires ValidOptions(s)
    ensures var cmds := PaintPaths(s).value;
      forall j :: 0 <= j < |cmds| && cmds[j] == FillPreserve ==>
        0 < j && s.fillColor.Some? && cmds[j - 1] == SetSourceRgba(s.fillColor.value, s.opacity)
  {
    PaintParts(s);
  }

  /** The stroke is made in the line colour: five calls before each `stroke`
      the source is set to the line colour and the opacity, and the calls in
      between are the stroke settings, so no other colour intervenes. */
  lemma StrokeSource(s: PaintStyle)
    requires ValidOptions(s)
    ensures var cmds := PaintPaths(s).value;
      forall j :: 0 <= j < |cmds| && cmds[j] == Stroke ==>
        && 5 <= j && s.lineColor.Some?
        && cmds[j - 5] == SetSourceRgba(s.lineColor.value, s.opacity)
        && forall k :: j - 5 < k < j ==> StrokeSetting(cmds[k])
  {
    var cmds, fill, stroke := PaintPaths(s).value, FillCmds(s), StrokeCmds(s);
    PaintParts(s);
    forall j | 0 <= j < |cmds| && cmds[j] == Stroke
      ensures 5 <= j && s.lineColor.Some?
      ensures cmds[j - 5] == SetSourceRgba(s.lineColor.value, s.opacity)
      ensures forall k :: j - 5 < k < j ==> StrokeSetting(cmds[k])
    {
      assert stroke[j - |fill|] == Stroke;
    }
  }

  /** The width, dash, cap and join are all set after the fill and before
      the stroke. */
  lemma SettingsBetween(s: PaintStyle)
    requires ValidOptions(s)
    ensures var cmds := PaintPaths(s).value;
      && (forall i, j :: 0 <= i < |cmds| && 0 <= j < |cmds| && cmds[j] == FillPreserve && StrokeSetting(cmds[i]) ==> j < i)
      && (forall i, j :: 0 <= i < |cmds| && 0 <= j < |cmds| && StrokeSetting(cmds[i]) && cmds[j] == Stroke ==> i < j)
  {
    var cmds, fill, stroke := PaintPaths(s).value, FillCmds(s), StrokeCmds(s);
    PaintParts(s);
    forall i, j | 0 <= i < |cmds| && 0 <= j < |cmds| && StrokeSetting(cmds[i]) && cmds[j] == Stroke
      ensures i < j
    {
      assert StrokeSetting(stroke[i - |fill|]) && stroke[j - |fill|] == Stroke;
    }
  }

  /** With only one colour given only that branch runs: a fill alone is the
      fill colour then `fill_preserve`; a stroke alone sets the line colour
      first, strokes last, and sets no other colour and fills nothing in
      between. */
  lemma SingleColour(s: PaintStyle)
    requires ValidOptions(s)
    ensures var cmds := PaintPaths(s).value;
      s.fillColor.Some? && s.lineColor.None? ==>
        cmds == [SetSourceRgba(s.fillColor.value, s.opacity), FillPreserve]
    ensures var cmds := PaintPaths(s).value;
      s.fillColor.None? && s.lineColor.Some? ==>
        && |cmds| == 6
        && cmds[0] == SetSourceRgba(s.lineColor.value, s.opacity)
        && cmds[5] == Stroke
        && forall k :: 0 < k < 5 ==> StrokeSetting(cmds[k])
  {
    PaintParts(s);
  }
}

=== FILE: realmath.dfy ===
/** The transcendental part of the real numbers that the drawing code takes from
    `math` and `numpy`: cosine, sine, square root and pi.  They are not computed
    here.  Every member that needs them receives them as a `Funcs` value, and the
    facts it relies on are stated as predicates on that value and required
    explicitly, so each property names exactly which facts about cos, sin and
    sqrt it depends on. */
module RealMath {

  /** cos, sin, sqrt and the constant pi, as the model receives them. */
  datatype Funcs = Funcs(cos: real -> real, sin: real -> real, sqrt: real -> real, pi: real)

  /** cos 0 = 1 and sin 0 = 0. */
  predicate ZeroAngle(f: Funcs) {
    f.cos(0.0) == 1.0 && f.sin(0.0) == 0.0
  }

  /** The values of cos and sin at the quarter turns pi/2, pi, 3pi/2 and 2pi. */
  predicate QuarterTurns(f: Funcs) {
    && f.pi > 0.0
    && f.cos(f.pi / 2.0) == 0.0 && f.sin(f.pi / 2.0) == 1.0
    && f.cos(f.pi) == -1.0 && f.sin(f.pi) == 0.0
    && f.cos(3.0 * f.pi / 2.0) == 0.0 && f.sin(3.0 * f.pi / 2.0) == -1.0
    && f.cos(2.0 * f.pi) == 1.0 && f.sin(2.0 * f.pi) == 0.0
  }

  /** cos^2 x + sin^2 x = 1 for every angle x. */
  ghost predicate Pythagorean(f: Funcs) {
    forall x: real :: f.cos(x) * f.cos(x) + f.sin(x) * f.sin(x) == 1.0
  }

  /** sqrt is the non-negative square root on the non-negative reals: zero at
      zero, and the positive root of every positive number. */
  ghost predicate SquareRoot(f: Funcs) {
    && f.sqrt(0.0) == 0.0
    && forall x: real :: 0.0 < x ==> 0.0 < f.sqrt(x) && f.sqrt(x) * f.sqrt(x) == x
  }

  /** `math.radians`: an angle in degrees converted to radians. */
  function Radians(f: Funcs, degrees: real): (r: real)
    ensures degrees == 180.0 ==> r == f.pi
    ensures degrees == 0.0 ==> r == 0.0
  {
    degrees * f.pi / 180.0
  }

  /** The conversion is additive on every pair of angles, so turning a shape
      by a further 360 degrees turns it by a further 2 pi. */
  lemma RadiansAdditive(f: Funcs, a: real, b: real)
    ensures Radians(f, a + b) == Radians(f, a) + Radians(f, b)
    ensures Radians(f, a + 360.0) == Radians(f, a) + 2.0 * f.pi
  {
    assert (a + b) * f.pi == a * f.pi + b * f.pi;
    assert (a + 360.0) * f.pi == a * f.pi + 360.0 * f.pi;
  }
}

=== FILE: shapes.dfy ===
/** The shape classes of `cutout/shapes.py` and their `draw` methods.  Each
    shape is one variant of `Shape`; `Draw` returns the calls it makes on the
    surface, in order, and the style error it stopped on, if any. */
module Shapes {
  import opened Wrappers
  import opened Geometry
  import opened RealMath
  import opened Surface
  import opened Paint
  import opened Outlines
  import T = Transformations

  // ----------------------------------------------------------------------------
  // Traces

  /** What a draw does to the surface: the calls made, in order, and the error
      that interrupted it.  When `failure` is set the calls before the error
      have still been made, since the source has no `try`/`finally`. */
  datatype Trace = Trace(cmds: seq<Cmd>, failure: Option<StyleError>)

  /** Calls that cannot fail. */
  function Emit(cmds: seq<Cmd>): Trace {
    Trace(cmds, None)
  }

  /** A call of `paint_paths`. */
  function Painted(s: PaintStyle): Trace {
    match PaintPaths(s)
    case Success(cmds) => Trace(cmds, None)
    case Failure(e) => Trace([], Some(e))
  }

  /** `a` followed by `b`; an error in `a` stops everything after it. */
  function Then(a: Trace, b: Trace): Trace {
    if a.failure.Some? then a else Trace(a.cmds + b.cmds, b.failure)
  }

  /** The rotation by `orientation` degrees about `pivot` that every `draw`
      except `Arrow.draw` applies before building its path. */
  function Rotation(f: Funcs, orientation: real, pivot: Point): T.CairoMatrix {
    T.RotateAroundPoint(f, Radians(f, orientation), pivot)
  }

  /** The pattern every `draw` except `Arrow.draw` follows: `save`, the
      transform `m`, the path, `paint_paths`, `restore`.  A style error stops
      the draw after the path, before `restore`. */
  function Framed(m: T.CairoMatrix, path: seq<Cmd>, style: PaintStyle): (t: Trace)
    ensures t.failure.None? <==> ValidOptions(style)
  {
    match PaintPaths(style)
    case Success(paint) => Trace([Save, Transform(m)] + path + paint + [Restore], None)
    case Failure(e) => Trace([Save, Transform(m)] + path, Some(e))
  }

  /** A framed draw opens with `save` and the transform, then the path
      unchanged, whether or not the style is accepted. */
  lemma FramedOpening(m: T.CairoMatrix, path: seq<Cmd>, style: PaintStyle)
    ensures var t := Framed(m, path, style);
      && |t.cmds| >= 2 + |path|
      && t.cmds[0] == Save
      && t.cmds[1] == Transform(m)
      && forall i :: 0 <= i < |path| ==> t.cmds[2 + i] == path[i]
  {
    var t := Framed(m, path, style);
    assert t.cmds[..2 + |path|] == [Save, Transform(m)] + path;
  }

  /** A framed draw with accepted options ends with the calls of
      `paint_paths` and then its one and only `restore`. */
  lemma FramedSuccess(m: T.CairoMatrix, path: seq<Cmd>, style: PaintStyle)
    requires forall i :: 0 <= i < |path| ==> IsPathCmd(path[i])
    requires ValidOptions(style)
    ensures var t := Framed(m, path, style);
      && t.cmds[2 + |path|..|t.cmds| - 1] == PaintPaths(style).value
      && t.cmds[|t.cmds| - 1] == Restore
      && multiset(t.cmds)[Restore] == 1
  {
    var t := Framed(m, path, style);
    var prefix := [Save, Transform(m)] + path;
    var paint := PaintPaths(style).value;
    assert Restore !in prefix by {
      forall i | 0 <= i < |prefix|
        ensures prefix[i] != Restore
      {
        if i >= 2 {
          assert prefix[i] == path[i - 2];
        }
      }
    }
    assert Restore !in paint;
    assert t.cmds == prefix + paint + [Restore];
    assert t.cmds[2 + |path|..|t.cmds| - 1] == paint;
    assert multiset(t.cmds) == multiset(prefix) + multiset(paint) + multiset{Restore};
  }

  /** A framed draw whose options are rejected stops after the path with the
      error of `paint_paths`, and never restores the state it saved. */
  lemma FramedFailure(m: T.CairoMatrix, path: seq<Cmd>, style: PaintStyle)
    requires forall i :: 0 <= i < |path| ==> IsPathCmd(path[i])
    requires !ValidOptions(style)
    ensures var t := Framed(m, path, style);
      && t.failure == Some(PaintPaths(style).error)
      && |t.cmds| == 2 + |path|
      && Restore !in t.cmds
  {
    var t := Framed(m, path, style);
    forall i | 0 <= i < |t.cmds|
      ensures t.cmds[i] != Restore
    {
      if i >= 2 {
        assert t.cmds[i] == path[i - 2];
      }
    }
  }

  // ----------------------------------------------------------------------------
  // Shapes

  /** One shape with its constructor's parameters.  Paint options live in a
      `PaintStyle`; a shape whose constructor lacks an option ignores that
      field (`Circle` draws with cap "butt" and join "mitter", `Lines` never
      fills). */
  datatype Shape =
    | Circle(radius: real, position: Point, orientation: real, style: PaintStyle)
    | Rectangle(position: Point, width: real, height: real, orientation: real, style: PaintStyle)
    | Lines(points: seq<Point>, orientation: real, style: PaintStyle)
    | Polygon(points: seq<Point>, orientation: real, style: PaintStyle)
    | RegularPolygon(nFaces: nat, radius: real, position: Point, orientation: real, style: PaintStyle)
    | Star(nPoints: nat, externalRadius: real, internalRadius: real, position: Point, orientation: real, style: PaintStyle)
    | Arrow(origin: Point, vector: Point, headStyle: string, headLength: real, headWidth: real,
            minHeadLength: Option<real>, lineColor: Option<Color>, lineStyle: string, lineWidth: real, opacity: real)
    | RoundedRectangle(position: Point, width: real, height: real, cornerRadius: real, orientation: real, style: PaintStyle)

  /** The inputs the source can draw without crashing: a non-empty point list,
      at least one face or point, an arrow of non-zero length whose head
      length is not zero where the clamping divides by it. */
  ghost predicate WellFormed(f: Funcs, s: Shape) {
    match s
    case Lines(points, _, _) => |points| > 0
    case Polygon(points, _, _) => |points| > 0
    case RegularPolygon(n, _, _, _, _) => n > 0
    case Star(n, _, _, _, _, _) => n > 0
    case Arrow(_, vector, _, headLength, _, minHeadLength, _, _, _, _) =>
      && SquareRoot(f)
      && vector != Point(0.0, 0.0)
      && (ClampDivides(ArrowLength(f, vector), headLength, minHeadLength) ==> headLength != 0.0)
    case _ => true
  }

  /** Which options a shape's draw checks: the line style only, for the shapes
      that fix their cap and join, all three otherwise. */
  predicate OptionsAccepted(s: Shape) {
    match s
    case Circle(_, _, _, style) => style.lineStyle in LineStyles
    case Arrow(_, _, _, _, _, _, _, lineStyle, _, _) => lineStyle in LineStyles
    case _ => ValidOptions(s.style)
  }

  /** The options `Circle.draw` paints with: its cap and join are fixed. */
  function CircleStyle(s: Shape): PaintStyle
    requires s.Circle?
  {
    s.style.(lineCap := "butt", lineJoin := "mitter")
  }

  /** The options a framed shape hands to `paint_paths`. */
  function Style(s: Shape): PaintStyle
    requires !s.Arrow?
  {
    match s
    case Circle(_, _, _, _) => CircleStyle(s)
    case Rectangle(_, _, _, _, style) => style
    case Lines(_, _, style) => style.(fillColor := None)
    case Polygon(_, _, style) => style
    case RegularPolygon(_, _, _, _, style) => style
    case Star(_, _, _, _, _, style) => style
    case RoundedRectangle(_, _, _, _, _, style) => style
  }

  /** The point a framed shape is rotated about: the half-span of the points
      for `Lines` and `Polygon`, the position otherwise. */
  function Pivot(s: Shape): Point
    requires !s.Arrow? && (s.Lines? || s.Polygon? ==> |s.points| > 0)
  {
    if s.Lines? || s.Polygon? then SpanPivot(s.points) else s.position
  }

  /** The path a framed shape builds. */
  function Path(f: Funcs, s: Shape): (path: seq<Cmd>)
    requires !s.Arrow? && WellFormed(f, s)
    ensures forall i :: 0 <= i < |path| ==> IsPathCmd(path[i])
  {
    match s
    case Circle(radius, position, _, _) => [Arc(position, radius, 0.0, 2.0 * f.pi)]
    case Rectangle(position, width, height, _, _) =>
      [Rect(Point(position.x - width / 2.0, position.y - height / 2.0), width, height)]
    case Lines(points, _, _) =>
      PolylineIsPath(points);
      PolylinePath(points)
    case Polygon(points, _, _) =>
      PolylineIsPath(points);
      PolylinePath(points) + [ClosePath]
    case RegularPolygon(n, radius, position, _, _) =>
      var v := RegularPolygonVertices(f, n, radius, position);
      PolylineIsPath(v);
      PolylinePath(v) + [ClosePath]
    case Star(n, externalRadius, internalRadius, position, _, _) =>
      var v := StarVertices(f, n, externalRadius, internalRadius, position);
      PolylineIsPath(v);
      PolylinePath(v) + [ClosePath]
    case RoundedRectangle(position, width, height, radius, _, _) =>
      RoundedRectPath(f, position, width, height, radius)
  }

  /** The `draw` of every shape except `Arrow`. */
  function FramedDraw(f: Funcs, s: Shape): Trace
    requires !s.Arrow? && WellFormed(f, s)
  {
    Framed(Rotation(f, s.orientation, Pivot(s)), Path(f, s), Style(s))
  }

  /** The polyline path and its closed form only build the path. */
  lemma PolylineIsPath(points: seq<Point>)
    requires |points| > 0
    ensures forall i :: 0 <= i < |PolylinePath(points)| ==> IsPathCmd(PolylinePath(points)[i])
    ensures forall i :: 0 <= i < |PolylinePath(points) + [ClosePath]| ==> IsPathCmd((PolylinePath(points) + [ClosePath])[i])
  {
    PolylineEmission(points);
  }

  /** The head size of an arrow after the clamping of its constructor. */
  function ArrowHead(f: Funcs, s: Shape): Head
    requires s.Arrow? && WellFormed(f, s)
  {
    ArrowLengthPositive(f, s.vector);
    ClampHead(ArrowLength(f, s.vector), s.headLength, s.headWidth, s.minHeadLength)
  }

  /** `arrow_head_points` as the constructor computes them. */
  function ArrowHeadPoints(f: Funcs, s: Shape): (p: seq<Point>)
    requires s.Arrow? && WellFormed(f, s)
    ensures |p| == 4
  {
    ArrowLengthPositive(f, s.vector);
    HeadPoints(s.origin, s.vector, ArrowLength(f, s.vector), ArrowHead(f, s))
  }

  /** The options of the `Polygon` an arrow fills its head with: the line
      colour fills and strokes, the rest are `Polygon`'s defaults. */
  function HeadFill(s: Shape): PaintStyle
    requires s.Arrow?
  {
    PaintStyle(s.lineColor, s.lineColor, s.lineWidth, "-", "butt", "bevel", s.opacity)
  }

  /** The options of the `Lines` an arrow strokes its head with: the arrow's
      colour, width and style, the rest are `Lines`' defaults. */
  function HeadStroke(s: Shape): PaintStyle
    requires s.Arrow?
  {
    PaintStyle(None, s.lineColor, s.lineWidth, s.lineStyle, "butt", "bevel", 1.0)
  }

  /** The shape an arrow draws its head with, chosen by `head_style`. */
  function HeadShape(s: Shape, p: seq<Point>): Option<Shape>
    requires s.Arrow? && |p| == 4
  {
    if s.headStyle == "triangle" then Some(Polygon([p[0], p[1], p[3]], 0.0, HeadFill(s)))
    else if s.headStyle == "stroke" then Some(Lines([p[1], p[0], p[3]], 0.0, HeadStroke(s)))
    else if s.headStyle == "arrow" then Some(Polygon(p, 0.0, HeadFill(s)))
    else None
  }

  /** The head part of `Arrow.draw`: the head shape's own `draw`, if any. */
  function ArrowHeadTrace(f: Funcs, s: Shape, p: seq<Point>): Trace
    requires s.Arrow? && |p| == 4
  {
    match HeadShape(s, p)
    case Some(head) => FramedDraw(f, head)
    case None => Emit([])
  }

  /** The options `Arrow.draw` strokes its shaft with. */
  function ShaftStroke(s: Shape): PaintStyle
    requires s.Arrow?
  {
    PaintStyle(None, s.lineColor, s.lineWidth, s.lineStyle, "butt", "mitter", s.opacity)
  }

  /** The options of the final `paint_paths` of `Arrow.draw`: a fill in the
      line colour and no stroke. */
  function TailFill(s: Shape): PaintStyle
    requires s.Arrow?
  {
    PaintStyle(s.lineColor, None, s.lineWidth, "-", "butt", "mitter", s.opacity)
  }

  /** `Arrow.draw`: the shaft and its stroke, the head, then a final fill of
      whatever path is current.  There is no `save`/`restore` of its own. */
  function ArrowTrace(f: Funcs, s: Shape): Trace
    requires s.Arrow? && WellFormed(f, s)
  {
    var shaft := Then(Emit([MoveTo(s.origin), LineTo(Add(s.origin, s.vector))]),
                      Painted(ShaftStroke(s)));
    var tail := Painted(TailFill(s));
    Then(Then(shaft, ArrowHeadTrace(f, s, ArrowHeadPoints(f, s))), tail)
  }

  /** The `draw` method of each shape; it fails exactly when an option the
      shape passes on is missing from its table. */
  function Draw(f: Funcs, s: Shape): (t: Trace)
    requires WellFormed(f, s)
    ensures t.failure.None? <==> OptionsAccepted(s)
  {
    if s.Arrow? then
      ArrowDrawFailure(f, s);
      ArrowTrace(f, s)
    else
      StyleOptions(s);
      FramedDraw(f, s)
  }

  // ----------------------------------------------------------------------------
  // Properties

  /** The options a framed shape hands on are accepted exactly when its own
      are: a circle's fixed cap and join are always in their tables. */
  lemma StyleOptions(s: Shape)
    requires !s.Arrow?
    ensures ValidOptions(Style(s)) <==> OptionsAccepted(s)
  {
  }

  /** An arrow's draw fails exactly when its line style is unknown: the head
      and the final fill use fixed options that are always accepted. */
  lemma ArrowDrawFailure(f: Funcs, s: Shape)
    requires s.Arrow? && WellFormed(f, s)
    ensures ArrowTrace(f, s).failure.None? <==> s.lineStyle in LineStyles
  {
    if s.lineStyle in LineStyles {
      HeadAccepted(f, s, ArrowHeadPoints(f, s));
    }
  }

  /** With a known line style, whichever head is drawn is drawn without an
      error. */
  lemma HeadAccepted(f: Funcs, s: Shape, p: seq<Point>)
    requires s.Arrow? && |p| == 4 && s.lineStyle in LineStyles
    ensures ArrowHeadTrace(f, s, p).failure.None?
  {
    assert ValidOptions(HeadFill(s)) && ValidOptions(HeadStroke(s));
  }

  /** Every draw except the arrow's opens with `save`. */
  lemma SaveFirst(f: Funcs, s: Shape)
    requires WellFormed(f, s) && !s.Arrow?
    ensures |Draw(f, s).cmds| >= 2 && Draw(f, s).cmds[0] == Save
  {
    FramedOpening(Rotation(f, s.orientation, Pivot(s)), Path(f, s), Style(s));
  }

  /** Every draw except the arrow's closes its `save` with one `restore`, but
      only on success: a style error leaves the saved state on the stack,
      since the source has no `try`/`finally`. */
  lemma RestoreOnSuccessOnly(f: Funcs, s: Shape)
    requires WellFormed(f, s) && !s.Arrow?
    ensures var t := Draw(f, s);
      && (t.failure.None? ==> t.cmds[|t.cmds| - 1] == Restore && multiset(t.cmds)[Restore] == 1)
      && (t.failure.Some? ==> Restore !in t.cmds)
  {
    var m, path, st := Rotation(f, s.orientation, Pivot(s)), Path(f, s), Style(s);
    assert Draw(f, s) == Framed(m, path, st);
    if ValidOptions(st) {
      FramedSuccess(m, path, st);
    } else {
      FramedFailure(m, path, st);
    }
  }

  /** A circle is one full turn of an arc about its position, rotated about
      that position. */
  lemma CircleDraw(f: Funcs, s: Shape)
    requires s.Circle?
    ensures var t := Draw(f, s);
      && t.cmds[1] == Transform(Rotation(f, s.orientation, s.position))
      && t.cmds[2] == Arc(s.position, s.radius, 0.0, 2.0 * f.pi)
  {
    FramedOpening(Rotation(f, s.orientation, s.position), Path(f, s), Style(s));
  }

  /** A circle with a known line style is drawn without error, and after the
      arc come exactly the calls of `paint_paths` with the circle's fixed
      options, then `restore`. */
  lemma CirclePaint(f: Funcs, s: Shape)
    requires s.Circle? && s.style.lineStyle in LineStyles
    ensures var t := Draw(f, s);
      && t.failure.None?
      && t.cmds[3..|t.cmds| - 1] == PaintPaths(CircleStyle(s)).value
      && t.cmds[|t.cmds| - 1] == Restore
  {
    StyleOptions(s);
    var m, path, st := Rotation(f, s.orientation, s.position), Path(f, s), Style(s);
    assert |path| == 1;
    FramedSuccess(m, path, st);
  }

  /** A circle is stroked with join "mitter" and cap "butt", or a round cap
      for the dotted styles, whatever its style asks for. */
  lemma CircleStroke(s: Shape)
    requires s.Circle? && s.style.lineStyle in LineStyles
    ensures var paint := PaintPaths(CircleStyle(s)).value;
      && (s.style.lineColor.Some? ==> SetLineJoin(JoinMiter) in paint)
      && (forall c :: c in paint && c.SetLineJoin? ==> c.join == JoinMiter)
      && (forall c :: c in paint && c.SetLineCap? ==> c.cap == (if Dotted(s.style.lineStyle) then CapRound else CapButt))
  {
    CapSetting(CircleStyle(s));
    JoinAndWidthSettings(CircleStyle(s));
  }

  /** A rectangle is drawn as cairo's rectangle of its width and height
      centred on its position, rotated about that position. */
  lemma RectangleDraw(f: Funcs, s: Shape)
    requires s.Rectangle?
    ensures var t := Draw(f, s);
      && t.cmds[1] == Transform(Rotation(f, s.orientation, s.position))
      && t.cmds[2].Rect? && t.cmds[2].width == s.width && t.cmds[2].height == s.height
      && Add(t.cmds[2].corner, Point(s.width / 2.0, s.height / 2.0)) == s.position
  {
    FramedOpening(Rotation(f, s.orientation, s.position), Path(f, s), s.style);
  }

  /** The closed polyline path: `move_to` the first point, `line_to` each
      other point in order, then `close_path`. */
  lemma ClosedPolylineEmission(points: seq<Point>)
    requires |points| > 0
    ensures var path := PolylinePath(points) + [ClosePath];
      && |path| == |points| + 1
      && path[0] == MoveTo(points[0])
      && (forall i :: 1 <= i < |points| ==> path[i] == LineTo(points[i]))
      && path[|points|] == ClosePath
  {
    PolylineEmission(points);
  }

  /** A closed polyline drawn through `points`: `move_to` the first point,
      `line_to` each other point in order, `close_path`. */
  lemma ClosedPolylineDraw(m: T.CairoMatrix, points: seq<Point>, style: PaintStyle)
    requires |points| > 0
    ensures var t := Framed(m, PolylinePath(points) + [ClosePath], style);
      var n := |points|;
      && |t.cmds| >= 3 + n
      && t.cmds[1] == Transform(m)
      && t.cmds[2] == MoveTo(points[0])
      && (forall i :: 1 <= i < n ==> t.cmds[2 + i] == LineTo(points[i]))
      && t.cmds[2 + n] == ClosePath
  {
    ClosedPolylineEmission(points);
    FramedOpening(m, PolylinePath(points) + [ClosePath], style);
  }

  /** A polygon is drawn through its points in order, closed, rotated about
      its half-span pivot. */
  lemma PolygonDraw(f: Funcs, s: Shape)
    requires s.Polygon? && |s.points| > 0
    ensures var t := Draw(f, s);
      var n := |s.points|;
      && t.cmds[1] == Transform(Rotation(f, s.orientation, SpanPivot(s.points)))
      && t.cmds[2] == MoveTo(s.points[0])
      && (forall i :: 1 <= i < n ==> t.cmds[2 + i] == LineTo(s.points[i]))
      && t.cmds[2 + n] == ClosePath
  {
    ClosedPolylineDraw(Rotation(f, s.orientation, SpanPivot(s.points)), s.points, s.style);
  }

  /** A polyline is drawn as `move_to` its first point and `line_to` each
      other point in order, rotated about its half-span pivot, with no
      `close_path` and never a fill. */
  lemma LinesDraw(f: Funcs, s: Shape)
    requires s.Lines? && |s.points| > 0
    ensures var t := Draw(f, s);
      var n := |s.points|;
      && t.cmds[1] == Transform(Rotation(f, s.orientation, SpanPivot(s.points)))
      && t.cmds[2] == MoveTo(s.points[0])
      && (forall i :: 1 <= i < n ==> t.cmds[2 + i] == LineTo(s.points[i]))
      && ClosePath !in t.cmds
      && FillPreserve !in t.cmds
  {
    var m := Rotation(f, s.orientation, SpanPivot(s.points));
    OpenPolylineDraw(m, s.points, Style(s));
    OpenPolylineUnfilled(m, s.points, s.style);
  }

  /** An open polyline drawn through `points`: `move_to` the first point,
      `line_to` each other point in order. */
  lemma OpenPolylineDraw(m: T.CairoMatrix, points: seq<Point>, style: PaintStyle)
    requires |points| > 0
    ensures var t := Framed(m, PolylinePath(points), style);
      var n := |points|;
      && t.cmds[1] == Transform(m)
      && t.cmds[2] == MoveTo(points[0])
      && (forall i :: 1 <= i < n ==> t.cmds[2 + i] == LineTo(points[i]))
  {
    PolylineEmission(points);
    FramedOpening(m, PolylinePath(points), style);
  }

  /** An open polyline drawn with the fill colour dropped has neither
      `close_path` nor `fill_preserve` anywhere. */
  lemma OpenPolylineUnfilled(m: T.CairoMatrix, points: seq<Point>, style: PaintStyle)
    requires |points| > 0
    ensures var t := Framed(m, PolylinePath(points), style.(fillColor := None));
      ClosePath !in t.cmds && FillPreserve !in t.cmds
  {
    var st, path := style.(fillColor := None), PolylinePath(points);
    PolylineIsOpen(points);
    if ValidOptions(st) {
      FillAndStrokeCounts(st);
      assert ClosePath !in PaintPaths(st).value;
    }
    FramedExcludes(m, path, st, ClosePath);
    FramedExcludes(m, path, st, FillPreserve);
  }

  /** The polyline path has no `close_path` and no `fill_preserve`. */
  lemma PolylineIsOpen(points: seq<Point>)
    requires |points| > 0
    ensures ClosePath !in PolylinePath(points) && FillPreserve !in PolylinePath(points)
  {
    PolylineEmission(points);
    var path := PolylinePath(points);
    assert forall i :: 0 <= i < |path| ==> path[i].MoveTo? || path[i].LineTo?;
  }

  /** A call that is not `save`, the transform or `restore`, and appears in
      neither the path nor the paint calls, is not made by a framed draw. */
  lemma FramedExcludes(m: T.CairoMatrix, path: seq<Cmd>, style: PaintStyle, x: Cmd)
    requires x != Save && x != Transform(m) && x != Restore && x !in path
    requires ValidOptions(style) ==> x !in PaintPaths(style).value
    ensures x !in Framed(m, path, style).cmds
  {
  }

  /** A regular polygon is drawn through its vertices on the circle, rotated
      about its position rather than about the polygon's half-span pivot. */
  lemma RegularPolygonDraw(f: Funcs, s: Shape)
    requires s.RegularPolygon? && s.nFaces > 0
    ensures var v := RegularPolygonVertices(f, s.nFaces, s.radius, s.position);
      var t := Draw(f, s);
      && t.cmds[1] == Transform(Rotation(f, s.orientation, s.position))
      && t.cmds[2] == MoveTo(v[0])
      && (forall i :: 1 <= i < s.nFaces ==> t.cmds[2 + i] == LineTo(v[i]))
      && t.cmds[2 + s.nFaces] == ClosePath
  {
    var v := RegularPolygonVertices(f, s.nFaces, s.radius, s.position);
    ClosedPolylineDraw(Rotation(f, s.orientation, s.position), v, s.style);
  }

  /** A star is drawn through its `2n` alternating vertices, rotated about its
      position rather than about the polygon's half-span pivot. */
  lemma StarDraw(f: Funcs, s: Shape)
    requires s.Star? && s.nPoints > 0
    ensures var v := StarVertices(f, s.nPoints, s.externalRadius, s.internalRadius, s.position);
      var t := Draw(f, s);
      && t.cmds[1] == Transform(Rotation(f, s.orientation, s.position))
      && t.cmds[2] == MoveTo(v[0])
      && (forall i :: 1 <= i < 2 * s.nPoints ==> t.cmds[2 + i] == LineTo(v[i]))
      && t.cmds[2 + 2 * s.nPoints] == ClosePath
  {
    var v := StarVertices(f, s.nPoints, s.externalRadius, s.internalRadius, s.position);
    ClosedPolylineDraw(Rotation(f, s.orientation, s.position), v, s.style);
  }

  /** A rounded rectangle is drawn as its continuous line-and-arc path,
      rotated about its position. */
  lemma RoundedRectangleDraw(f: Funcs, s: Shape)
    requires s.RoundedRectangle?
    ensures var t := Draw(f, s);
      var path := RoundedRectPath(f, s.position, s.width, s.height, s.cornerRadius);
      && t.cmds[1] == Transform(Rotation(f, s.orientation, s.position))
      && forall i :: 0 <= i < |path| ==> t.cmds[2 + i] == path[i]
  {
    FramedOpening(Rotation(f, s.orientation, s.position), Path(f, s), s.style);
  }

  /** With cos 0 = 1 and sin 0 = 0, a shape drawn at orientation 0 gets the
      identity transform, whatever its pivot. */
  lemma Unrotated(f: Funcs, s: Shape)
    requires !s.Arrow? && WellFormed(f, s) && ZeroAngle(f) && s.orientation == 0.0
    ensures FramedDraw(f, s) == Framed(T.CairoIdentity, Path(f, s), Style(s))
  {
    T.ZeroRotationIsIdentity(f, Pivot(s));
  }

  /** A triangle head is the closed polyline through the tip and the two back
      corners, drawn unrotated (given cos 0 = 1 and sin 0 = 0) and filled and
      stroked in the line colour. */
  lemma TriangleHead(f: Funcs, s: Shape, p: seq<Point>)
    requires s.Arrow? && |p| == 4 && ZeroAngle(f) && s.headStyle == "triangle"
    ensures ArrowHeadTrace(f, s, p) == Framed(T.CairoIdentity, PolylinePath([p[0], p[1], p[3]]) + [ClosePath], HeadFill(s))
  {
    var head := Polygon([p[0], p[1], p[3]], 0.0, HeadFill(s));
    assert HeadShape(s, p) == Some(head);
    Unrotated(f, head);
  }

  /** A stroke head is the open polyline back corner, tip, back corner, drawn
      unrotated and stroked only. */
  lemma StrokeHead(f: Funcs, s: Shape, p: seq<Point>)
    requires s.Arrow? && |p| == 4 && ZeroAngle(f) && s.headStyle == "stroke"
    ensures ArrowHeadTrace(f, s, p) == Framed(T.CairoIdentity, PolylinePath([p[1], p[0], p[3]]), HeadStroke(s))
  {
    var head := Lines([p[1], p[0], p[3]], 0.0, HeadStroke(s));
    assert HeadShape(s, p) == Some(head);
    Unrotated(f, head);
  }

  /** An "arrow" head is the closed polyline through all four head points,
      notch included, drawn unrotated and filled and stroked in the line
      colour. */
  lemma NotchedHead(f: Funcs, s: Shape, p: seq<Point>)
    requires s.Arrow? && |p| == 4 && ZeroAngle(f) && s.headStyle == "arrow"
    ensures ArrowHeadTrace(f, s, p) == Framed(T.CairoIdentity, PolylinePath(p) + [ClosePath], HeadFill(s))
  {
    var head := Polygon(p, 0.0, HeadFill(s));
    assert HeadShape(s, p) == Some(head);
    Unrotated(f, head);
  }

  /** An arrow starts with its shaft from the origin to the tip. */
  lemma ArrowShaft(f: Funcs, s: Shape)
    requires s.Arrow? && WellFormed(f, s)
    ensures |Draw(f, s).cmds| >= 2
    ensures Draw(f, s).cmds[..2] == [MoveTo(s.origin), LineTo(Add(s.origin, s.vector))]
  {
    var line := Emit([MoveTo(s.origin), LineTo(Add(s.origin, s.vector))]);
    var stroke := Painted(ShaftStroke(s));
    var tail := Painted(TailFill(s));
    var head := ArrowHeadTrace(f, s, ArrowHeadPoints(f, s));
    ThenPrefix(line, stroke);
    ThenPrefix(Then(line, stroke), head);
    ThenPrefix(Then(Then(line, stroke), head), tail);
  }

  /** With a known line style an arrow is, in order: the shaft from the
      origin to the tip, its stroke, the head's own draw, and a final fill in
      the line colour (nothing when there is no line colour). */
  lemma ArrowLayout(f: Funcs, s: Shape)
    requires s.Arrow? && WellFormed(f, s) && s.lineStyle in LineStyles
    ensures var head := ArrowHeadTrace(f, s, ArrowHeadPoints(f, s));
      && Draw(f, s).failure.None?
      && Draw(f, s).cmds
           == [MoveTo(s.origin), LineTo(Add(s.origin, s.vector))]
            + PaintPaths(ShaftStroke(s)).value
            + head.cmds
            + (if s.lineColor.Some? then [SetSourceRgba(s.lineColor.value, s.opacity), FillPreserve] else [])
  {
    HeadAccepted(f, s, ArrowHeadPoints(f, s));
    assert ValidOptions(ShaftStroke(s)) && ValidOptions(TailFill(s));
  }

  /** With an unknown head style an arrow draws no head, and then it makes no
      `save` or `restore` at all. */
  lemma ArrowWithoutHead(f: Funcs, s: Shape)
    requires s.Arrow? && WellFormed(f, s) && s.headStyle !in {"triangle", "stroke", "arrow"}
    ensures HeadShape(s, ArrowHeadPoints(f, s)).None?
    ensures Save !in Draw(f, s).cmds && Restore !in Draw(f, s).cmds
  {
    var line := Emit([MoveTo(s.origin), LineTo(Add(s.origin, s.vector))]);
    var stroke := Painted(ShaftStroke(s));
    var tail := Painted(TailFill(s));
    var head := ArrowHeadTrace(f, s, ArrowHeadPoints(f, s));
    assert head == Emit([]);
    PaintedExcludes(ShaftStroke(s));
    PaintedExcludes(TailFill(s));
    ThenExcludes(line, stroke, Save);
    ThenExcludes(line, stroke, Restore);
    ThenExcludes(Then(line, stroke), head, Save);
    ThenExcludes(Then(line, stroke), head, Restore);
    ThenExcludes(Then(Then(line, stroke), head), tail, Save);
    ThenExcludes(Then(Then(line, stroke), head), tail, Restore);
  }

  /** `paint_paths` neither saves nor restores. */
  lemma PaintedExcludes(st: PaintStyle)
    ensures Save !in Painted(st).cmds && Restore !in Painted(st).cmds
  {
  }

  /** The calls of `Then(a, b)` start with those of `a`. */
  lemma ThenPrefix(a: Trace, b: Trace)
    ensures |Then(a, b).cmds| >= |a.cmds|
    ensures Then(a, b).cmds[..|a.cmds|] == a.cmds
  {
    if a.failure.None? {
      assert (a.cmds + b.cmds)[..|a.cmds|] == a.cmds;
    }
  }

  /** `Then(a, b)` makes no call that neither `a` nor `b` makes. */
  lemma ThenExcludes(a: Trace, b: Trace, x: Cmd)
    requires x !in a.cmds && x !in b.cmds
    ensures x !in Then(a, b).cmds
  {
  }
}

=== FILE: surface.dfy ===
/** The drawing surface as the shapes see it: each call the code makes on a
    cairo context is recorded as one `Cmd`, and a drawing is the sequence of
    commands it issues.  Rendering itself is not modelled. */
module Surface {
  import opened Geometry
  import Transformations

  /** A colour name; resolving it to RGB components is not part of this model. */
  type Color = string

  /** cairo's line caps. */
  datatype LineCap = CapSquare | CapRound | CapButt

  /** cairo's line joins. */
  datatype LineJoin = JoinBevel | JoinRound | JoinMiter

  /** One call on the cairo context. */
  datatype Cmd =
    | Save
    | Restore
    | Transform(matrix: Transformations.CairoMatrix)
    | MoveTo(to: Point)
    | LineTo(to: Point)
    | Arc(center: Point, radius: real, angle1: real, angle2: real)
    | Rect(corner: Point, width: real, height: real)
    | ClosePath
    | SetSourceRgba(color: Color, alpha: real)
    | SetLineWidth(width: real)
    | SetDash(dashes: seq<real>)
    | SetLineCap(cap: LineCap)
    | SetLineJoin(join: LineJoin)
    | FillPreserve
    | Stroke

  /** Whether a command only builds the current path (as opposed to painting
      it or changing the surface's state). */
  predicate IsPathCmd(c: Cmd) {
    c.MoveTo? || c.LineTo? || c.Arc? || c.Rect? || c.ClosePath?
  }
}

=== FILE: transformations.dfy ===
/** The affine transforms of `cutout/transformations.py`: 3x3 homogeneous
    matrices for rotation, translation and scale, their product, the repacking
    into cairo's six coefficients, and the rotation about a pivot point that
    every shape uses to orient itself. */
module Transformations {
  import opened Geometry
  import RealMath

  /** A 3x3 matrix; `mij` is the entry in row i, column j. */
  datatype Mat3 = Mat3(
    m00: real, m01: real, m02: real,
    m10: real, m11: real, m12: real,
    m20: real, m21: real, m22: real)

  /** A column vector of homogeneous coordinates. */
  datatype Vec3 = Vec3(x: real, y: real, w: real)

  /** The point `p` in homogeneous coordinates, `(x, y, 1)`. */
  function Lift(p: Point): Vec3 {
    Vec3(p.x, p.y, 1.0)
  }

  /** An affine (not projective) transform: its bottom row is `(0, 0, 1)`. */
  predicate Affine(m: Mat3) {
    m.m20 == 0.0 && m.m21 == 0.0 && m.m22 == 1.0
  }

  const Identity: Mat3 := Mat3(1.0, 0.0, 0.0, 0.0, 1.0, 0.0, 0.0, 0.0, 1.0)

  /** The matrix-vector product `m v`. */
  function Apply(m: Mat3, v: Vec3): Vec3 {
    Vec3(m.m00 * v.x + m.m01 * v.y + m.m02 * v.w,
         m.m10 * v.x + m.m11 * v.y + m.m12 * v.w,
         m.m20 * v.x + m.m21 * v.y + m.m22 * v.w)
  }

  /** The matrix product `a @ b`. */
  function Mul(a: Mat3, b: Mat3): (r: Mat3)
    ensures Affine(a) && Affine(b) ==> Affine(r)
  {
    Mat3(a.m00 * b.m00 + a.m01 * b.m10 + a.m02 * b.m20,
         a.m00 * b.m01 + a.m01 * b.m11 + a.m02 * b.m21,
         a.m00 * b.m02 + a.m01 * b.m12 + a.m02 * b.m22,
         a.m10 * b.m00 + a.m11 * b.m10 + a.m12 * b.m20,
         a.m10 * b.m01 + a.m11 * b.m11 + a.m12 * b.m21,
         a.m10 * b.m02 + a.m11 * b.m12 + a.m12 * b.m22,
         a.m20 * b.m00 + a.m21 * b.m10 + a.m22 * b.m20,
         a.m20 * b.m01 + a.m21 * b.m11 + a.m22 * b.m21,
         a.m20 * b.m02 + a.m21 * b.m12 + a.m22 * b.m22)
  }

  /** `rotation_matrix`: counter-clockwise rotation by `angle` radians about the origin. */
  function RotationMatrix(f: RealMath.Funcs, angle: real): (r: Mat3)
    ensures Affine(r)
    ensures forall p :: Apply(r, Lift(p)) == Lift(Rotate(f.cos(angle), f.sin(angle), p))
  {
    Mat3(f.cos(angle), -f.sin(angle), 0.0,
         f.sin(angle), f.cos(angle), 0.0,
         0.0, 0.0, 1.0)
  }

  /** `translation_matrix`: the shift by `(tx, ty)`. */
  function TranslationMatrix(tx: real, ty: real): (r: Mat3)
    ensures Affine(r)
    ensures forall p :: Apply(r, Lift(p)) == Lift(Add(p, Point(tx, ty)))
  {
    Mat3(1.0, 0.0, tx,
         0.0, 1.0, ty,
         0.0, 0.0, 1.0)
  }

  /** `scale_matrix`: independent scaling of the two axes. */
  function ScaleMatrix(sx: real, sy: real): (r: Mat3)
    ensures Affine(r)
    ensures forall x, y :: Apply(r, Vec3(x, y, 1.0)) == Vec3(sx * x, sy * y, 1.0)
  {
    Mat3(sx, 0.0, 0.0,
         0.0, sy, 0.0,
         0.0, 0.0, 1.0)
  }

  /** Rotation of the vector `v` about the origin, given the cosine `c` and sine
      `s` of the angle: the reference the matrices are compared against. */
  function Rotate(c: real, s: real, v: Point): Point {
    Point(c * v.x - s * v.y, s * v.x + c * v.y)
  }

  /** cairo's six coefficients `(xx, yx, xy, yy, x0, y0)`, which map a point to
      `(xx*x + xy*y + x0, yx*x + yy*y + y0)`. */
  datatype CairoMatrix = CairoMatrix(xx: real, yx: real, xy: real, yy: real, x0: real, y0: real)

  const CairoIdentity: CairoMatrix := CairoMatrix(1.0, 0.0, 0.0, 1.0, 0.0, 0.0)

  /** The point that cairo computes for `p` under `cm`. */
  function CairoApply(cm: CairoMatrix, p: Point): Point {
    Point(cm.xx * p.x + cm.xy * p.y + cm.x0, cm.yx * p.x + cm.yy * p.y + cm.y0)
  }

  /** `cairo_matrix`: the first two rows of `m` repacked column by column. */
  function ToCairo(m: Mat3): CairoMatrix {
    CairoMatrix(m.m00, m.m10, m.m01, m.m11, m.m02, m.m12)
  }

  /** The affine 3x3 matrix whose repacking is `cm`. */
  function FromCairo(cm: CairoMatrix): (m: Mat3)
    ensures Affine(m)
  {
    Mat3(cm.xx, cm.xy, cm.x0,
         cm.yx, cm.yy, cm.y0,
         0.0, 0.0, 1.0)
  }

  /** `rotate_around_point`: `T(+pivot) @ R(angle) @ T(-pivot)` in cairo's form. */
  function RotateAroundPoint(f: RealMath.Funcs, angle: real, pivot: Point): CairoMatrix {
    ToCairo(Mul(Mul(TranslationMatrix(pivot.x, pivot.y), RotationMatrix(f, angle)),
                TranslationMatrix(-pivot.x, -pivot.y)))
  }

  // ----------------------------------------------------------------------------
  // Properties

  /** cairo applies the six coefficients exactly as the 3x3 matrix acts on
      `(x, y, 1)`: the b/c order of the repacking is not transposed. */
  lemma CairoAgreesWithMatrix(m: Mat3, p: Point)
    ensures CairoApply(ToCairo(m), p) == Point(Apply(m, Lift(p)).x, Apply(m, Lift(p)).y)
  {
    assert Apply(m, Lift(p)).x == m.m00 * p.x + m.m01 * p.y + m.m02;
    assert Apply(m, Lift(p)).y == m.m10 * p.x + m.m11 * p.y + m.m12;
  }

  /** Multiplying matrices composes their actions: `(a @ b) v = a (b v)`. */
  lemma MulApply(a: Mat3, b: Mat3, v: Vec3)
    ensures Apply(Mul(a, b), v) == Apply(a, Apply(b, v))
  {
    var ab := Mul(a, b);
    RowTimesProduct(a.m00, a.m01, a.m02, b, v, ab.m00, ab.m01, ab.m02);
    RowTimesProduct(a.m10, a.m11, a.m12, b, v, ab.m10, ab.m11, ab.m12);
    RowTimesProduct(a.m20, a.m21, a.m22, b, v, ab.m20, ab.m21, ab.m22);
  }

  /** One row `(p, q, t)` of `a` against `b v` equals the row `(e0, e1, e2)`
      of `a @ b` against `v`. */
  lemma RowTimesProduct(p: real, q: real, t: real, b: Mat3, v: Vec3, e0: real, e1: real, e2: real)
    requires e0 == p * b.m00 + q * b.m10 + t * b.m20
    requires e1 == p * b.m01 + q * b.m11 + t * b.m21
    requires e2 == p * b.m02 + q * b.m12 + t * b.m22
    ensures p * Apply(b, v).x + q * Apply(b, v).y + t * Apply(b, v).w == e0 * v.x + e1 * v.y + e2 * v.w
  {
    var bv := Apply(b, v);
    assert p * bv.x == p * (b.m00 * v.x + b.m01 * v.y + b.m02 * v.w);
    assert q * bv.y == q * (b.m10 * v.x + b.m11 * v.y + b.m12 * v.w);
    assert t * bv.w == t * (b.m20 * v.x + b.m21 * v.y + b.m22 * v.w);
    assert p * (b.m00 * v.x + b.m01 * v.y + b.m02 * v.w) == p * b.m00 * v.x + p * b.m01 * v.y + p * b.m02 * v.w;
    assert q * (b.m10 * v.x + b.m11 * v.y + b.m12 * v.w) == q * b.m10 * v.x + q * b.m11 * v.y + q * b.m12 * v.w;
    assert t * (b.m20 * v.x + b.m21 * v.y + b.m22 * v.w) == t * b.m20 * v.x + t * b.m21 * v.y + t * b.m22 * v.w;
    assert e0 * v.x == (p * b.m00 + q * b.m10 + t * b.m20) * v.x;
    assert e1 * v.y == (p * b.m01 + q * b.m11 + t * b.m21) * v.y;
    assert e2 * v.w == (p * b.m02 + q * b.m12 + t * b.m22) * v.w;
  }

  /** On affine matrices the repacking loses nothing: it is undone by `FromCairo`. */
  lemma CairoRoundTrip(m: Mat3, cm: CairoMatrix)
    ensures Affine(m) ==> FromCairo(ToCairo(m)) == m
    ensures ToCairo(FromCairo(cm)) == cm
  {
  }

  /** Translating by `(a, b)` undoes translating by `(-a, -b)`. */
  lemma TranslationInverse(a: real, b: real)
    ensures Mul(TranslationMatrix(a, b), TranslationMatrix(-a, -b)) == Identity
    ensures Mul(TranslationMatrix(-a, -b), TranslationMatrix(a, b)) == Identity
  {
  }

  /** Any product of rotation, translation and scale matrices is affine. */
  ghost predicate Built(ms: seq<Mat3>) {
    forall i :: 0 <= i < |ms| ==> Affine(ms[i])
  }

  function Product(ms: seq<Mat3>): (r: Mat3)
    ensures Built(ms) ==> Affine(r)
  {
    if |ms| == 0 then Identity else Mul(ms[0], Product(ms[1..]))
  }

  /** The pivot is a fixed point of the rotation about it, for every angle. */
  lemma PivotIsFixed(f: RealMath.Funcs, angle: real, pivot: Point)
    ensures CairoApply(RotateAroundPoint(f, angle, pivot), pivot) == pivot
  {
    PivotRotation(f, angle, pivot, pivot);
  }

  /** The transform moves every point `q` to `pivot + R(angle)(q - pivot)`. */
  lemma PivotRotation(f: RealMath.Funcs, angle: real, pivot: Point, q: Point)
    ensures CairoApply(RotateAroundPoint(f, angle, pivot), q)
         == Add(pivot, Rotate(f.cos(angle), f.sin(angle), Sub(q, pivot)))
  {
    var m := Mul(Mul(TranslationMatrix(pivot.x, pivot.y), RotationMatrix(f, angle)),
                 TranslationMatrix(-pivot.x, -pivot.y));
    CairoAgreesWithMatrix(m, q);
    assert Apply(TranslationMatrix(-pivot.x, -pivot.y), Lift(q)) == Lift(Sub(q, pivot));
  }

  /** With cos 0 = 1 and sin 0 = 0, rotating by zero about any pivot is the identity. */
  lemma ZeroRotationIsIdentity(f: RealMath.Funcs, pivot: Point)
    requires RealMath.ZeroAngle(f)
    ensures RotateAroundPoint(f, 0.0, pivot) == CairoIdentity
  {
  }

  /** With cos^2 + sin^2 = 1, rotating about `pivot` keeps every point's
      squared distance to the pivot. */
  lemma RotationKeepsDistance(f: RealMath.Funcs, angle: real, pivot: Point, q: Point)
    requires RealMath.Pythagorean(f)
    ensures Dist2(CairoApply(RotateAroundPoint(f, angle, pivot), q), pivot) == Dist2(q, pivot)
  {
    var c, s := f.cos(angle), f.sin(angle);
    var d := Sub(q, pivot);
    PivotRotation(f, angle, pivot, q);
    assert Sub(Add(pivot, Rotate(c, s, d)), pivot) == Rotate(c, s, d);
    RotationKeepsNorm(c, s, d);
  }

  /** A rotation with `c^2 + s^2 = 1` keeps squared lengths. */
  lemma RotationKeepsNorm(c: real, s: real, v: Point)
    requires c * c + s * s == 1.0
    ensures Norm2(Rotate(c, s, v)) == Norm2(v)
  {
    calc {
      Norm2(Rotate(c, s, v));
      (c * v.x - s * v.y) * (c * v.x - s * v.y) + (s * v.x + c * v.y) * (s * v.x + c * v.y);
      (c * c + s * s) * (v.x * v.x) + (c * c + s * s) * (v.y * v.y);
      Norm2(v);
    }
  }
}

=== FILE: wrappers.dfy ===
/** Optional values and fallible results, used for the drawing code's `None`
    arguments and for the style checks that raise. */
module Wrappers {

  /** A value that may be absent, as a Python argument defaulting to `None`. */
  datatype Option<+T> = None | Some(value: T)

  /** Either a computed value or the error that aborted the computation. */
  datatype Result<+R, +E> = Success(value: R) | Failure(error: E)
}
